=== FILE: README.md ===
# CodeFlow-Analyzer dependency-graph pipeline, modelled in Dafny

CodeFlow-Analyzer builds a module dependency graph of a JavaScript/TypeScript repository.
This project models the backend pipeline that turns a cloned repository into that graph:

- **Discovery.** `getSourceFiles` walks the directory tree. It keeps `.js`, `.ts`, `.jsx` and `.tsx` files and prunes `node_modules` and dot-directories.
- **Per-file analysis.** `analyzeFile` / `analyzeFiles` walk each tree-sitter syntax tree. They collect import, `require` and export records and bucket every specifier as internal or external.
- **Specifier resolution.** `resolveImportPath` probes `base + ext`, then `base/index + ext`, then `base`, and returns the first path that exists.
- **Aggregation.** `generateGraphData` folds the results into an insertion-ordered node map, where the last write decides a node's kind, and an edge list that is never deduplicated.
- **URL parsing.** `parseRepoURL` takes owner and repository name from a GitHub URL and normalises the clone URL.
- **Glue.** `parseFiles` and `generateGraphDataFromClone` connect the steps.

One Dafny module per source file:

- `SourceFiles` (get_source_files.dfy)
- `Analyzer` (analyze_files.dfy)
- `Resolver` (resolve_import_path.dfy)
- `GraphBuilder` (generate_graph_data.dfy)
- `RepoUrl` (parse_repo_url.dfy)
- `Pipeline` (pipeline.dfy)

Shared support modules:

- `Wrappers`: `Option`, and `Result` for JavaScript's `null` and `throw`.
- `Text`: prefix, suffix and quote helpers.
- `SyntaxTree`: the tree-sitter nodes the analyser reads.
- `Dict`: a JavaScript object as an insertion-ordered list of distinct keys.
- `Platform`: the host functions `fs.existsSync`, `path.resolve`, `path.dirname`, `path.join` and `path.isAbsolute`. They are injected as arbitrary total functions, so every result holds for any file system and any path semantics.

The code that mutates state is written as imperative Dafny and proved against specification functions. Properties are then proved about those functions.

- **Discovery.** `GetSourceFiles` is a recursive method with a loop that grows `files`. It is proved equal to the `Walk` function.
- **Per-file passes.** Each of the four passes of `analyzeFile` is a loop that pushes into the result arrays, modelled as `Collect*` methods. `AnalyzeFile` is proved equal to `Analysis`, and `AnalyzeFiles` is proved equal to `AllAnalyses`. The lemmas about `AllAnalyses` hold for any per-file analysis function, and `FileAnalysis` is the one analyzeFiles uses.
- **Resolver.** Its two early-return loops are proved equal to a first-match function over the eleven candidates.
- **Aggregation.** The node `Map` and the edge array are a class `Graph` whose methods mirror `nodes.set`, the `addEdges` closure and the per-file body. A ghost log of every `set` call ties the Map's order and contents to the functions `FirstOrder` and `LastKinds`.

The model follows the code where it differs from the project's stated behaviour:

- Quotes are removed everywhere in a specifier (`replace(/['"]/g, '')`), not only at its ends. An import whose stripped specifier is empty is skipped; a `require` whose stripped specifier is empty is recorded as external.
- `analyzeFiles` has no try/catch. An assignment node without a child 0 makes `left.type` throw, and the throw ends the whole run (`AnalysisError`). It is not a per-file skip. Only `parseFiles` skips files, namely unreadable, empty or unparsable ones.
- A file's own kind is `internal` only when `path.isAbsolute(file)` holds. It is not internal by definition.
- Any failing `readdir` or `stat` anywhere in the tree rejects `getSourceFiles`, not only a failure at the root.
- An edge target is `dep.resolved || dep.module`. An empty resolved path is falsy and falls back to the specifier.

## Model

| member | source | states |
|---|---|---|
| Text.StripQuotes | backend/helperFunctions/analyzeFiles.js:27 | the result contains no `'` or `"` and is no longer than the input; `StripQuotesSingle` and `StripQuotesAppend` together fix it as the removal of every quote |
| Text.StripQuotesSingle | backend/helperFunctions/analyzeFiles.js:27 | one character: a quote is dropped, any other character is kept |
| Text.StripQuotesAppend | backend/helperFunctions/analyzeFiles.js:27 | quote removal distributes over concatenation, so with `StripQuotesSingle` every quote is removed wherever it stands, not only the surrounding ones |
| Text.StripQuotesIdentity | backend/helperFunctions/analyzeFiles.js:27 | a specifier is left unchanged exactly when it contains no quote |
| Text.StripQuotesIdempotent | backend/helperFunctions/analyzeFiles.js:57 | the `replace(/['"]/g, '')` of lines 27 and 57 applied twice gives the same as once |
| SyntaxTree.NamedOnly | backend/helperFunctions/analyzeFiles.js:26 | `namedChildren` keeps every named child and nothing else, and is never longer than the child list; order is `NamedOnlyAppend` |
| SyntaxTree.NamedOnlyAppend | backend/helperFunctions/analyzeFiles.js:26 | named children keep their order: the named children of two runs of children are the two filters in sequence, so `find` and `namedChild(0)` see the first named child first |
| SyntaxTree.NamedOnlySingle | backend/helperFunctions/analyzeFiles.js:54 | a single child is kept iff it is named |
| SyntaxTree.DescendantsOfType | backend/helperFunctions/analyzeFiles.js:24 | every node returned has one of the requested kinds, and a matching node is returned first, ahead of its subtree; completeness is `DescendantsExactly` |
| SyntaxTree.DescendantsOfAll | backend/helperFunctions/analyzeFiles.js:71-76 | the filter over a list of subtrees returns only nodes of the requested kinds; completeness is `DescendantsOfAllExactly` |
| SyntaxTree.DescendantsExactly | backend/helperFunctions/analyzeFiles.js:24 | `descendantsOfType` is complete and exact: a node is returned iff it lies in the subtree and has a requested kind |
| SyntaxTree.DescendantsOfAllExactly | backend/helperFunctions/analyzeFiles.js:71-76 | over a list of subtrees, a node is returned iff it lies in one of them and has a requested kind |
| SyntaxTree.DescendantsOfAllAppend | backend/helperFunctions/analyzeFiles.js:25 | siblings keep their order: the walk over two runs of siblings is the two walks in sequence |
| SyntaxTree.NoneOfKinds | backend/helperFunctions/analyzeFiles.js:24 | a subtree without any node of the requested kinds yields nothing |
| Resolver.Candidates | backend/helperFunctions/resolveImportPath.js:7-19 | the probe order: `full + ext` for the five extensions in order, then `join(full, 'index' + ext)` in the same order, then `full` |
| Resolver.FirstExisting | backend/helperFunctions/resolveImportPath.js:10-21 | null exactly when no candidate exists; otherwise the existing candidate with no existing candidate before it |
| Resolver.Base | backend/helperFunctions/resolveImportPath.js:7 | `full`, the specifier resolved against the importing file's directory; every candidate of `Candidates` is built from it, and `BareFallback` returns it |
| Resolver.Resolution | backend/helperFunctions/resolveImportPath.js:4-22 | the reference answer of resolveImportPath; characterised by `NonRelativeIsNull`, `ResolvedPathExists`, `FileMatchWins`, `IndexMatch` and `BareFallback` |
| Resolver.ResolveImportPath | backend/helperFunctions/resolveImportPath.js:4-22 | the two early-return probe loops and the final check return exactly `Resolution`: null for a specifier not starting with `.`, else the first existing candidate, or null |
| Resolver.FirstExistingAt | backend/helperFunctions/resolveImportPath.js:10-19 | a candidate that exists with none existing before it is the answer, whatever exists after it |
| Resolver.NonRelativeIsNull | backend/helperFunctions/resolveImportPath.js:5 | any specifier not starting with `.`, `/`-rooted ones included, resolves to null |
| Resolver.ResolvedPathExists | backend/helperFunctions/resolveImportPath.js:11 | a non-null resolution is a path for which the existence check held |
| Resolver.FileMatchWins | backend/helperFunctions/resolveImportPath.js:10-12 | the first existing `full + ext` is returned even when index files exist |
| Resolver.IndexMatch | backend/helperFunctions/resolveImportPath.js:14-17 | with no direct file, the first existing `index + ext`, in the same extension order, is returned |
| Resolver.BareFallback | backend/helperFunctions/resolveImportPath.js:19-21 | with neither direct nor index file, `full` is returned if it exists, else null |
| Dict.Put | backend/helperFunctions/analyzeFiles.js:108 | `obj[k] = v`: an existing key keeps its position and takes the new value, a new key is appended, and keys stay distinct |
| Dict.PutKeys | backend/helperFunctions/analyzeFiles.js:108 | after `obj[k] = v` the key set is the old one plus `k`, with at most one more entry |
| Analyzer.IsInternal | backend/helperFunctions/analyzeFiles.js:4 | a specifier is internal iff its first character is `.` or `/`; `BucketsPartition` and `ClassifiedRecords` show it decides each record's bucket |
| Analyzer.Classify | backend/helperFunctions/analyzeFiles.js:30-31 | the bucket the ternaries on lines 30-31 and 58-60 pick: internal iff the first character is `.` or `/` |
| Analyzer.FindOfKind | backend/helperFunctions/analyzeFiles.js:26 | `find` returns the first node of the kind, and null exactly when there is none |
| Analyzer.ImportSpecifier | backend/helperFunctions/analyzeFiles.js:26-28 | the first named `string` child's text without quotes, skipped when empty; its properties are stated by `Specifier` and `EmptyImport` |
| Analyzer.IsRequireCall | backend/helperFunctions/analyzeFiles.js:48-56 | callee identifier `require`, an `arguments` child with exactly one named child, and that child a `string`; `EmptyRequire` exhibits it |
| Analyzer.RequireSpecifier | backend/helperFunctions/analyzeFiles.js:57 | a specifier exists iff the call is a `require` of one string argument; it holds no quote and is no longer than the argument's text, and `EmptyRequireSpecifier` shows an empty one is kept |
| Analyzer.Record | backend/helperFunctions/analyzeFiles.js:61-65 | the pushed object: `module` is the specifier and `location` the node's `startPosition`; `resolved` is set only for an internal specifier and then names an existing path; `BucketComplete` and `ClassifiedRecords` place it |
| Analyzer.Specifier | backend/helperFunctions/analyzeFiles.js:26-28 | a recognised specifier is quote-free, and an import specifier is never empty |
| Analyzer.Bucket | backend/helperFunctions/analyzeFiles.js:24-40 | at most one record per node; each record comes from some node of the pass, carrying that node's specifier as `module` and its `startPosition` as `location`, is classified into its bucket, and carries the resolver's answer if internal and null if external |
| Analyzer.BucketComplete | backend/helperFunctions/analyzeFiles.js:30-39 | every node of the pass whose specifier falls in the bucket yields its record there |
| Analyzer.BucketAppend | backend/helperFunctions/analyzeFiles.js:25-40 | records follow traversal order: the records of two runs of nodes are the two bucket lists in sequence |
| Analyzer.BucketsPartition | backend/helperFunctions/analyzeFiles.js:30-31 | every recognised node lands in exactly one of the two buckets, so together they hold one record per recognised node |
| Analyzer.ExportRecords | backend/helperFunctions/analyzeFiles.js:77-82 | exactly one `{code: node.text, location: startPosition}` per export node, in traversal order |
| Analyzer.AssignmentExports | backend/helperFunctions/analyzeFiles.js:84-97 | the assignment pass throws iff some assignment node has no child 0; otherwise a record is present iff it is `{code: node.text, location: startPosition}` of an assignment whose left side is `module.exports` or `exports.<name>`; count and order are `AssignmentExportsAppend` with `AssignmentExportsSingle` |
| Analyzer.AssignmentExportsSingle | backend/helperFunctions/analyzeFiles.js:85-95 | one node: a throw without child 0, else exactly one record if it assigns an export, else none |
| Analyzer.AssignmentExportsAppend | backend/helperFunctions/analyzeFiles.js:85-97 | the pass runs node by node in traversal order: over two runs it throws the first run's error, else the second's, else records the two runs' records in sequence |
| Analyzer.AssignsExports | backend/helperFunctions/analyzeFiles.js:88-91 | the left side is a `member_expression` whose text starts with `exports.` or is `module.exports`; used by `AssignmentExports` and `ModuleExportsRecorded` |
| Analyzer.ModuleExportsRecorded | backend/helperFunctions/analyzeFiles.js:84-97 | `module.exports = {a: 1}` gives exactly one record, with the whole assignment as its code |
| Analyzer.PlainAssignmentSkipped | backend/helperFunctions/analyzeFiles.js:88-91 | `x = 1` gives no record |
| Analyzer.AssignmentFailureSticks | backend/helperFunctions/analyzeFiles.js:85-89 | once the pass has thrown, later nodes do not change the outcome |
| Analyzer.Analysis | backend/helperFunctions/analyzeFiles.js:6-102 | the reference result of analyzeFile; characterised by `RecordCounts`, `ClassifiedRecords`, `EmptyProgram` and the `Bucket`/`AssignmentExports` contracts |
| Analyzer.CollectImports | backend/helperFunctions/analyzeFiles.js:24-40 | the imports loop pushes exactly the records of `Bucket` into the internal and external arrays |
| Analyzer.CollectRequires | backend/helperFunctions/analyzeFiles.js:43-68 | the requires loop records exactly the calls with callee `require`, one named argument and that argument a string, empty specifiers included |
| Analyzer.CollectExports | backend/helperFunctions/analyzeFiles.js:71-82 | the export-node loop pushes exactly `ExportRecords` |
| Analyzer.CollectAssignmentExports | backend/helperFunctions/analyzeFiles.js:84-97 | the assignment loop throws exactly when the pass does, with the same error, and otherwise appends its records after the earlier exports |
| Analyzer.AnalyzeFile | backend/helperFunctions/analyzeFiles.js:6-102 | the four passes together produce exactly `Analysis`, or its error |
| Analyzer.AnalyzeFiles | backend/helperFunctions/analyzeFiles.js:104-111 | the loop that stores each file's `analyzeFile` result under its path returns exactly `AllAnalyses`, the first thrown error ending the run |
| Analyzer.AllAnalyses | backend/helperFunctions/analyzeFiles.js:104-111 | the results object of a successful run has distinct keys |
| Analyzer.AllAnalysesSucceed | backend/helperFunctions/analyzeFiles.js:104-111 | analyzeFiles succeeds iff every file's analysis succeeds |
| Analyzer.AllAnalysesValues | backend/helperFunctions/analyzeFiles.js:107-109 | for a `parsedTrees` object (distinct keys), a successful run holds exactly one result per file, in the same order, each that file's analysis |
| Analyzer.AllAnalysesFirstError | backend/helperFunctions/analyzeFiles.js:106-108 | a failed run carries the error of the first file whose analysis throws |
| Analyzer.FirstErrorStops | backend/helperFunctions/analyzeFiles.js:106-108 | once a file has thrown, the files after it do not change the outcome |
| Analyzer.RecordCounts | backend/helperFunctions/analyzeFiles.js:24-97 | import records ≤ import statements, require records ≤ call expressions, and the exports start with one record per export node followed by at most one per assignment |
| Analyzer.ClassifiedRecords | backend/helperFunctions/analyzeFiles.js:8 | the result's type is internal iff the path is absolute; internal records start with `.` or `/` and carry the resolver's answer; external records never resolve; import specifiers are never empty |
| Analyzer.EmptyProgram | backend/helperFunctions/analyzeFiles.js:6-21 | a file whose tree holds no import, call, export or assignment node anywhere yields empty import, require and export lists |
| Analyzer.EmptyRequire | backend/helperFunctions/analyzeFiles.js:56-65 | `require('')` is recorded as an external dependency with an empty specifier and no resolution |
| Analyzer.EmptyImport | backend/helperFunctions/analyzeFiles.js:26-29 | `import ''` adds nothing to either bucket, since an empty stripped specifier is skipped |
| GraphBuilder.FirstOrder | backend/helperFunctions/generateGraphData.js:9-14 | the Map's key order after a run of `set` calls, as `Array.from` on line 26 lists it; characterised by `FirstOrderKeys` (each written id once) and `FirstOrderPrefix` (a key keeps its first position) |
| GraphBuilder.LastKinds | backend/helperFunctions/generateGraphData.js:9-14 | the value each key holds after a run of `set` calls; characterised by `FirstOrderKeys` (its keys are the written ids) and `LastWriteWins` (the value is the key's last write) |
| GraphBuilder.FirstOrderKeys | backend/helperFunctions/generateGraphData.js:9 | the Map's keys are unique, are exactly the ids ever set, and are no more than the `set` calls |
| GraphBuilder.FirstOrderPrefix | backend/helperFunctions/generateGraphData.js:14 | a later `set` never moves an existing key: earlier key order is a prefix of later key order |
| GraphBuilder.LastWriteWins | backend/helperFunctions/generateGraphData.js:14 | the kind a key holds comes from its last `set` |
| GraphBuilder.DepWrites | backend/helperFunctions/generateGraphData.js:11-17 | the `set` calls of one `addEdges`: one per dependency; `DepStepAt` gives the i-th as that dependency's target with the list's kind |
| GraphBuilder.DepEdges | backend/helperFunctions/generateGraphData.js:11-17 | the edges pushed by one `addEdges`: one per dependency; `DepStepAt` gives the i-th as an edge from the file to that dependency's target |
| GraphBuilder.DepStepAt | backend/helperFunctions/generateGraphData.js:12-15 | the i-th dependency gives the i-th `set` (its target, the list's kind) and the i-th edge (from the file to that target) |
| GraphBuilder.DepEndpoints | backend/helperFunctions/generateGraphData.js:11-17 | the ids `addEdges` sets are exactly the targets of the edges it pushes, all from the file |
| GraphBuilder.FileWrites | backend/helperFunctions/generateGraphData.js:9-22 | one iteration's `set` calls: the file with its own type, then the four `addEdges` in source order; `FileEndpoints` and `WritesCount` characterise it |
| GraphBuilder.FileEdges | backend/helperFunctions/generateGraphData.js:11-22 | one iteration's edges: the four `addEdges` calls in source order; `FileEndpoints` and `EdgeCount` characterise it |
| GraphBuilder.FileEndpoints | backend/helperFunctions/generateGraphData.js:9-22 | one file's iteration sets the file and exactly its edge targets; its edges all start at the file |
| GraphBuilder.WrittenIdsAreFilesAndTargets | backend/helperFunctions/generateGraphData.js:8-23 | over the whole fold, the ids set are exactly the files plus the edge targets, and every edge source is a file |
| GraphBuilder.WritesCount | backend/helperFunctions/generateGraphData.js:8-23 | one `set` per file plus one per edge; one edge per recorded dependency |
| GraphBuilder.EdgeCount | backend/helperFunctions/generateGraphData.js:11-22 | the output edge count equals the sum of the four dependency-list lengths over all files, with no deduplication |
| GraphBuilder.EdgesSnoc | backend/helperFunctions/generateGraphData.js:8 | one more file appends that file's edges at the end |
| GraphBuilder.EdgesAppend | backend/helperFunctions/generateGraphData.js:19-22 | edges follow the file order: the edges of two consecutive runs of files are the two edge lists in sequence |
| GraphBuilder.NodeIdsUnique | backend/helperFunctions/generateGraphData.js:26-29 | output node ids are pairwise distinct, and there are at most files + edges of them |
| GraphBuilder.NodesAreFilesAndTargets | backend/helperFunctions/generateGraphData.js:9 | the output nodes are exactly the analysed files and the edge targets |
| GraphBuilder.EdgeEndpointsAreNodes | backend/helperFunctions/generateGraphData.js:14-15 | every edge starts at an analysed file, and both of its ends are output nodes |
| GraphBuilder.NodeKindIsLastWrite | backend/helperFunctions/generateGraphData.js:26-29 | each output node's type is the kind of the last `set` of its id |
| GraphBuilder.RelabelledFileNode | backend/helperFunctions/generateGraphData.js:9 | a file node relabelled by a later dependency keeps its first position but takes the later kind |
| GraphBuilder.Target | backend/helperFunctions/generateGraphData.js:13 | the edge target: the resolved path when it is a non-empty string, else the specifier; `DepStepAt` uses it |
| GraphBuilder.ToUi | backend/helperFunctions/generateGraphData.js:25-34 | the Map and the edge list, renamed field for field, same order and length |
| GraphBuilder.GraphOf | backend/helperFunctions/generateGraphData.js:2-37 | the reference graph of generateGraphData; characterised by `NodeIdsUnique`, `NodesAreFilesAndTargets`, `EdgeEndpointsAreNodes`, `NodeKindIsLastWrite` and `EdgeCount` |
| GraphBuilder.Graph.Valid | backend/helperFunctions/generateGraphData.js:3-6 | the `graph` object: the Map's key order and contents are `FirstOrder` and `LastKinds` of every `set` so far, beside the edge list |
| GraphBuilder.Graph.constructor | backend/helperFunctions/generateGraphData.js:3-6 | a fresh graph: an empty Map, no writes, no edges, and the invariant holding |
| GraphBuilder.Graph.Set | backend/helperFunctions/generateGraphData.js:9 | `nodes.set` logs the write, appends a new id to the key order and updates its kind, keeping the Map invariant |
| GraphBuilder.Graph.AddEdge | backend/helperFunctions/generateGraphData.js:12-15 | one dependency: sets the target's kind and pushes one edge from the file to it |
| GraphBuilder.Graph.AddEdges | backend/helperFunctions/generateGraphData.js:11-17 | the `addEdges` closure appends exactly `DepWrites` to the log and `DepEdges` to the edges |
| GraphBuilder.Graph.AddFile | backend/helperFunctions/generateGraphData.js:9-22 | one file: the file's `set`, then the four lists in the order imports.internal, imports.external, requires.internal, requires.external |
| GraphBuilder.GenerateGraphData | backend/helperFunctions/generateGraphData.js:2-37 | the imperative fold over the Map and the edge array returns exactly `GraphOf(allResults)` |
| SourceFiles.GetSourceFiles | backend/helperFunctions/getSourceFiles.js:5-17 | the recursive walk returns exactly `Walk`: a listing failure of the root, the first `stat` or `readdir` failure met in listing order, or the collected paths |
| SourceFiles.Then | backend/helperFunctions/getSourceFiles.js:11 | sequencing two walk steps: the first failure wins, otherwise the path lists are concatenated |
| SourceFiles.Pruned | backend/helperFunctions/getSourceFiles.js:10 | the directories not entered: `node_modules` and names starting with `.`; `PrunedContributesNothing` and `DotFileIncluded` characterise it |
| SourceFiles.IsSourceName | backend/helperFunctions/getSourceFiles.js:12 | the name ends with one of `.js`, `.ts`, `.jsx`, `.tsx` (line 4); `JsonSkipped`, `DotFileIncluded` and `GetSourceFilesYields` characterise it |
| SourceFiles.Walk | backend/helperFunctions/getSourceFiles.js:5-17 | the reference result of getSourceFiles; characterised by `FirstFailure` and `GetSourceFilesYields` |
| SourceFiles.WalkEntries | backend/helperFunctions/getSourceFiles.js:7-15 | the listing loop; characterised by `EntriesAppend`, `FirstFailure` and `EntriesYield` |
| SourceFiles.Visit | backend/helperFunctions/getSourceFiles.js:8-14 | one entry: a `stat` failure, recursion into an unpruned directory, a source file's path, or nothing; characterised by `VisitYields` |
| SourceFiles.ThenAssoc | backend/helperFunctions/getSourceFiles.js:11 | sequencing is associative |
| SourceFiles.EntriesAppend | backend/helperFunctions/getSourceFiles.js:7-15 | output order is listing order: two consecutive runs of a listing give their two results in sequence |
| SourceFiles.Splice | backend/helperFunctions/getSourceFiles.js:10-11 | a sub-directory's results are spliced in at that entry's position |
| SourceFiles.FailureStops | backend/helperFunctions/getSourceFiles.js:7-9 | once part of a listing fails, the rest of the listing does not matter |
| SourceFiles.FirstFailure | backend/helperFunctions/getSourceFiles.js:7-11 | a listing fails exactly when one of its entries fails, and then with the error of the first failing entry |
| SourceFiles.EntriesYield | backend/helperFunctions/getSourceFiles.js:7-15 | a successful walk returns exactly the paths some entry yields: a source file joined to its directory, or one found below an entered directory |
| SourceFiles.VisitYields | backend/helperFunctions/getSourceFiles.js:8-14 | one entry contributes exactly the paths it yields |
| SourceFiles.GetSourceFilesYields | backend/helperFunctions/getSourceFiles.js:5-17 | every returned path is `join(dir, name)` of a source file in a directory reached from the root through unpruned directories, and every such file is returned |
| SourceFiles.PrunedContributesNothing | backend/helperFunctions/getSourceFiles.js:10 | a `node_modules` or dot-directory contributes nothing and is never listed, whatever it holds |
| SourceFiles.DirectoryNotReturned | backend/helperFunctions/getSourceFiles.js:10-13 | a directory yields only paths found inside it, never itself, even when its name has a source extension |
| SourceFiles.JsonSkipped | backend/helperFunctions/getSourceFiles.js:4 | `.json` is not a source extension: such a file contributes nothing |
| SourceFiles.DotFileIncluded | backend/helperFunctions/getSourceFiles.js:12 | the dot rule is for directories only: a dot-named source file is returned |
| SourceFiles.SpecialSkipped | backend/helperFunctions/getSourceFiles.js:12 | an entry that is neither a file nor a directory is skipped without error |
| RepoUrl.TrimTrailingSlashes | backend/helperFunctions/parseRepoURL.js:12 | the result is a prefix of the url, everything removed is `/`, and the result does not end with `/` |
| RepoUrl.RunEnd | backend/helperFunctions/parseRepoURL.js:13 | a greedy character-class run: every character inside is in the class, and the one after it is not |
| RepoUrl.FindMatch | backend/helperFunctions/parseRepoURL.js:13 | the leftmost position where the pattern matches, or none when it matches nowhere |
| RepoUrl.MatchAt | backend/helperFunctions/parseRepoURL.js:13 | the pattern tried at one position; characterised by `MatchCaptured` and `NoMatchBeforeHost` |
| RepoUrl.CloneUrl | backend/helperFunctions/parseRepoURL.js:12-15 | the normalised clone URL; characterised by `CloneUrlShape` and `CloneUrlIdempotent` |
| RepoUrl.ParseRepoURL | backend/helperFunctions/parseRepoURL.js:11-17 | throws `Invalid GitHub URL` exactly when the pattern matches nowhere; otherwise the clone URL ends with `.git` and not with `/` |
| RepoUrl.CloneUrlShape | backend/helperFunctions/parseRepoURL.js:12-15 | the returned `cloneUrl` is the url cut before its maximal run of trailing `/`, with `.git` appended unless that prefix already ends with it |
| RepoUrl.TrimNoSlash | backend/helperFunctions/parseRepoURL.js:12 | a url not ending in `/` is unchanged by the trim |
| RepoUrl.CloneUrlIdempotent | backend/helperFunctions/parseRepoURL.js:12-15 | normalising a clone URL again changes nothing |
| RepoUrl.MatchCaptured | backend/helperFunctions/parseRepoURL.js:13 | a match at `i` is `github.com/`, a non-empty owner run, `/`, a non-empty repository run that cannot be extended |
| RepoUrl.Captures | backend/helperFunctions/parseRepoURL.js:13-16 | `owner` and `repoName` are the maximal `[\w-]` and `[\w.-]` runs at the leftmost match, taken from the url as given |
| RepoUrl.RunEndLocal | backend/helperFunctions/parseRepoURL.js:13 | a greedy run that stops inside a common prefix stops at the same place in both strings |
| RepoUrl.MatchLocal | backend/helperFunctions/parseRepoURL.js:13 | whether the pattern matches at a position, and the owner it captures there, depends only on the text up to just past the owner's `/` |
| RepoUrl.EarlierRunsStop | backend/helperFunctions/parseRepoURL.js:13 | an owner run starting before a `github.com/` stops at the latest at its `/` |
| RepoUrl.EarlierStillFail | backend/helperFunctions/parseRepoURL.js:13 | a position before a `github.com/` that fails to match keeps failing in a string that agrees far enough |
| RepoUrl.LeftmostMatch | backend/helperFunctions/parseRepoURL.js:13 | a match with no match before it is the one the regex finds |
| RepoUrl.CloneAgreesBeforeSlashes | backend/helperFunctions/parseRepoURL.js:12-15 | the clone URL agrees with the url up to its trailing slashes |
| RepoUrl.MatchBeforeSlashes | backend/helperFunctions/parseRepoURL.js:12-13 | a match ends on a repository character, so before the trailing slashes |
| RepoUrl.SameLeftmost | backend/helperFunctions/parseRepoURL.js:13 | two strings agreeing up to just past the leftmost match's owner have the same leftmost match position and owner |
| RepoUrl.CloneKeepsMatch | backend/helperFunctions/parseRepoURL.js:12-15 | in the clone URL the leftmost match is at the same place with the same owner |
| RepoUrl.RoundTrip | backend/helperFunctions/parseRepoURL.js:11-17 | feeding the returned `cloneUrl` back in succeeds with the same `cloneUrl` and the same `owner` |
| RepoUrl.NoMatchBeforeHost | backend/helperFunctions/parseRepoURL.js:13 | no position holding something other than `g` can start a match |
| RepoUrl.GitUrlMatch | backend/helperFunctions/parseRepoURL.js:13 | that url matches at 8 with groups `acme` and `tool.git` |
| RepoUrl.GitSuffixKept | backend/helperFunctions/parseRepoURL.js:13-16 | the match is on the url as given: `repoName` keeps `.git`, and the clone URL is the url itself |
| RepoUrl.SlashUrlMatch | backend/helperFunctions/parseRepoURL.js:13 | that url matches at 8 with groups `acme` and `tool` |
| RepoUrl.SlashUrlClone | backend/helperFunctions/parseRepoURL.js:12-15 | its clone URL is `https://github.com/acme/tool.git` |
| RepoUrl.RepoNameNotKept | backend/helperFunctions/parseRepoURL.js:11-17 | the round trip does not keep `repoName`: the slash url gives `tool`, its clone URL gives `tool.git` |
| Pipeline.ParsedTrees | backend/helperFunctions/parseFiles.js:5-24 | the `parsedTrees` object has distinct keys |
| Pipeline.ParseOne | backend/helperFunctions/parseFiles.js:12-17 | the tree stored for one file, none when reading throws, the source is empty or parsing throws; characterised by `ParsedTreesKeys` |
| Pipeline.ParseFiles | backend/helperFunctions/parseFiles.js:10-21 | the loop skips unreadable, empty and unparsable files and stores each other file's tree under its path |
| Pipeline.ParsedTreesKeys | backend/helperFunctions/parseFiles.js:10-21 | the keys are exactly the listed files that could be read and parsed, each with its own tree, and there are no more keys than listed files |
| Pipeline.GenerateGraphDataFromClone | backend/helperFunctions/generateGrpahDataFromClone.js:6-13 | a walk failure is returned as is; otherwise the result is the graph of the analyses of the trees parsed from the discovered files, or the analysis error; on success every edge starts at a discovered file and every discovered, readable, parsable file is a node |
| Pipeline.AnalysedFiles | backend/helperFunctions/analyzeFiles.js:104-111 | the files of the analysis results are exactly the keys they were computed from |

## Left out

- **Host semantics.** `path.resolve`, `path.join`, `path.dirname`, `path.isAbsolute` and `fs.existsSync` are arbitrary injected functions. Nothing depends on real path normalisation, so statements such as "a returned path lies under the root" are given as "is the `join` of a directory reached from the root".
- **Timing of `getSourceFiles`.** The asynchronous awaits are modelled as a sequential recursion, and a rejected promise is a `Failure`.
- **File system shape.** The file system is a finite tree in listing order. A symbolic link is seen through `stat`: it appears as the file or directory it points to, or as a `Dangling` entry. A cycle of directory links is entered again and again until the path is too deep for the operating system, whose `stat` or `readdir` then fails; the model has no link identity and represents that only as a finite unfolding ending in a `Dangling` or `Unlistable` entry.
- **JavaScript object key order.** `Object.entries` and `for…in` list integer-like keys first. The model keeps plain insertion order, which agrees for file paths because they always carry an extension.
- **The tree-sitter parser.** It is not part of this model; `parse` is an injected function, and a syntax tree holds only the fields the analyser reads.
- **`console.error`.** The logging in `parseFiles` is not modelled.
- **`\w` and strings.** `\w` is ASCII only, as JavaScript reads it without the `u` flag. Strings are sequences of Unicode scalar values, so JavaScript's UTF-16 code units and lone surrogates are not modelled.
- **I/O modules.** `cloneRepo`, `getRepoInfo`, `safeRemove`, the Express routes, the models, the authentication middleware and the React front end (including `validateGithubUrl`, `getRepositoryType` and `getFileName`) are not part of this model. They are git, HTTP, database, timer and UI code.

=== FILE: analyze_files.dfy ===
/**
 * analyzeFile / analyzeFiles: walk one file's syntax tree and collect its import,
 * require and export records; then do so for every parsed file.
 */
module Analyzer {
  import opened Wrappers
  import opened Text
  import opened Platform
  import opened SyntaxTree
  import opened Dict
  import Resolver

  datatype Kind = Internal | External

  /** One import or require occurrence: the `{module, resolved, location}` object. */
  datatype Dependency = Dependency(moduleName: string, resolved: Option<string>, location: Point)

  datatype Buckets = Buckets(internal: seq<Dependency>, external: seq<Dependency>)

  datatype ExportRecord = ExportRecord(code: string, location: Point)

  datatype AnalysisResult = AnalysisResult(
    kind: Kind,
    imports: Buckets,
    requireCalls: Buckets,
    exports: seq<ExportRecord>)

  /** Reading `left.type` of an assignment without a child 0 throws a TypeError. */
  datatype AnalysisError = MissingLeftOperand(location: Point)

  const ImportKinds: set<string> := {"import_statement"}
  const CallKinds: set<string> := {"call_expression"}
  const ExportKinds: set<string> :=
    {"export_statement", "export_clause", "export_default_declaration", "export_named_declaration"}
  const AssignmentKinds: set<string> := {"assignment_expression"}

  /** isInternal: a purely syntactic test on the specifier's first character. */
  predicate IsInternal(specifier: string): (b: bool)
    ensures b <==> |specifier| > 0 && (specifier[0] == '.' || specifier[0] == '/')
  {
    StartsWith(specifier, ".") || StartsWith(specifier, "/")
  }

  function Classify(specifier: string): (k: Kind)
    ensures k == Internal <==> |specifier| > 0 && (specifier[0] == '.' || specifier[0] == '/')
  {
    if IsInternal(specifier) then Internal else External
  }

  /** `nodes.find(n => n.type === kind)` */
  function FindOfKind(ns: seq<SyntaxNode>, kind: string): (r: Option<SyntaxNode>)
    ensures r.None? <==> forall m :: m in ns ==> m.kind != kind
    ensures r.Some? ==> exists k :: 0 <= k < |ns| && ns[k] == r.value && r.value.kind == kind
                                    && forall j :: 0 <= j < k ==> ns[j].kind != kind
  {
    if ns == [] then None
    else if ns[0].kind == kind then Some(ns[0])
    else
      var r := FindOfKind(ns[1..], kind);
      assert forall j :: 1 <= j < |ns| ==> ns[j] == ns[1..][j - 1];
      r
  }

  /**
   * The specifier of an import statement: the text of its first named `string` child
   * without quotes; None when there is no such child or nothing is left.
   */
  function ImportSpecifier(node: SyntaxNode): Option<string> {
    match FindOfKind(NamedChildren(node), "string")
    case None => None
    case Some(source) =>
      var raw := StripQuotes(source.text);
      if raw == "" then None else Some(raw)
  }

  /** `require(<string>)`: callee identifier `require`, an `arguments` node with exactly one named child, a string. */
  predicate IsRequireCall(node: SyntaxNode) {
    && Child(node, 0).Some?
    && Child(node, 0).value.kind == "identifier"
    && Child(node, 0).value.text == "require"
    && Child(node, 1).Some?
    && Child(node, 1).value.kind == "arguments"
    && |NamedChildren(Child(node, 1).value)| == 1
    && NamedChildren(Child(node, 1).value)[0].kind == "string"
  }

  /** The specifier of a require call, empty text included. */
  function RequireSpecifier(node: SyntaxNode): (r: Option<string>)
    ensures r.Some? <==> IsRequireCall(node)
    ensures r.Some? ==> QuoteFree(r.value) && |r.value| <= |NamedChildren(node.children[1])[0].text|
  {
    if IsRequireCall(node) then Some(StripQuotes(NamedChildren(node.children[1])[0].text)) else None
  }

  datatype Pass = ImportPass | RequirePass

  function Specifier(pass: Pass, node: SyntaxNode): (r: Option<string>)
    ensures r.Some? ==> QuoteFree(r.value)
    ensures r.Some? && pass == ImportPass ==> r.value != ""
  {
    match pass
    case ImportPass => ImportSpecifier(node)
    case RequirePass => RequireSpecifier(node)
  }

  /** The record pushed for a specifier: only internal specifiers are resolved. */
  function Record(env: Env, file: string, raw: string, node: SyntaxNode): (d: Dependency)
    ensures d.moduleName == raw && d.location == node.start
    ensures d.resolved.Some? ==> IsInternal(raw) && env.pathExists(d.resolved.value)
    ensures !IsInternal(raw) ==> d.resolved.None?
  {
    Dependency(raw, if IsInternal(raw) then Resolver.Resolution(env, file, raw) else None, node.start)
  }

  /** The records one pass pushes into the bucket of the given kind, in traversal order. */
  function Bucket(env: Env, file: string, pass: Pass, nodes: seq<SyntaxNode>, kind: Kind): (r: seq<Dependency>)
    ensures |r| <= |nodes|
    ensures forall d :: d in r ==>
      && Classify(d.moduleName) == kind
      && d.resolved == (if kind == Internal then Resolver.Resolution(env, file, d.moduleName) else None)
      && QuoteFree(d.moduleName)
      && (pass == ImportPass ==> d.moduleName != "")
    ensures forall d :: d in r ==>
      exists k :: 0 <= k < |nodes| && Specifier(pass, nodes[k]) == Some(d.moduleName) && d.location == nodes[k].start
  {
    if nodes == [] then []
    else
      var prior := Bucket(env, file, pass, nodes[..|nodes| - 1], kind);
      var node := nodes[|nodes| - 1];
      match Specifier(pass, node)
      case None => prior
      case Some(raw) => if Classify(raw) == kind then prior + [Record(env, file, raw, node)] else prior
  }

  /** How many nodes of a pass yield a specifier. */
  function Recognised(pass: Pass, nodes: seq<SyntaxNode>): (n: nat)
    ensures n <= |nodes|
  {
    if nodes == [] then 0
    else Recognised(pass, nodes[..|nodes| - 1]) + (if Specifier(pass, nodes[|nodes| - 1]).Some? then 1 else 0)
  }

  /**
   * Every recognised node lands in exactly one bucket and nothing is deduplicated:
   * the two buckets together hold one record per recognised node.
   */
  lemma {:induction false} BucketsPartition(env: Env, file: string, pass: Pass, nodes: seq<SyntaxNode>)
    ensures |Bucket(env, file, pass, nodes, Internal)| + |Bucket(env, file, pass, nodes, External)|
            == Recognised(pass, nodes)
  {
    if nodes != [] {
      BucketsPartition(env, file, pass, nodes[..|nodes| - 1]);
    }
  }

  /** Every recognised node whose specifier falls in the bucket yields its record there. */
  lemma BucketComplete(env: Env, file: string, pass: Pass, nodes: seq<SyntaxNode>, kind: Kind)
    ensures forall k :: 0 <= k < |nodes| && Specifier(pass, nodes[k]).Some? && Classify(Specifier(pass, nodes[k]).value) == kind ==>
              Record(env, file, Specifier(pass, nodes[k]).value, nodes[k]) in Bucket(env, file, pass, nodes, kind)
  {
    forall k | 0 <= k < |nodes| && Specifier(pass, nodes[k]).Some? && Classify(Specifier(pass, nodes[k]).value) == kind
      ensures Record(env, file, Specifier(pass, nodes[k]).value, nodes[k]) in Bucket(env, file, pass, nodes, kind)
    {
      BucketHas(env, file, pass, nodes, kind, k);
    }
  }

  lemma BucketHas(env: Env, file: string, pass: Pass, nodes: seq<SyntaxNode>, kind: Kind, k: nat)
    requires k < |nodes| && Specifier(pass, nodes[k]).Some? && Classify(Specifier(pass, nodes[k]).value) == kind
    ensures Record(env, file, Specifier(pass, nodes[k]).value, nodes[k]) in Bucket(env, file, pass, nodes, kind)
  {
    var before, after := nodes[..k], nodes[k + 1..];
    var rec := Record(env, file, Specifier(pass, nodes[k]).value, nodes[k]);
    assert nodes == before + ([nodes[k]] + after);
    BucketAppend(env, file, pass, before, [nodes[k]] + after, kind);
    BucketAppend(env, file, pass, [nodes[k]], after, kind);
    BucketSingle(env, file, pass, nodes[k], kind);
    var rest := Bucket(env, file, pass, after, kind);
    assert Bucket(env, file, pass, [nodes[k]] + after, kind) == [rec] + rest;
    assert rec in [rec] + rest;
  }

  lemma BucketSingle(env: Env, file: string, pass: Pass, node: SyntaxNode, kind: Kind)
    requires Specifier(pass, node).Some? && Classify(Specifier(pass, node).value) == kind
    ensures Bucket(env, file, pass, [node], kind) == [Record(env, file, Specifier(pass, node).value, node)]
  {
    assert [node][..0] == [];
  }

  /** Records keep traversal order: the records of two runs of nodes are the two bucket lists in sequence. */
  lemma {:induction false} BucketAppend(env: Env, file: string, pass: Pass, a: seq<SyntaxNode>, b: seq<SyntaxNode>, kind: Kind)
    ensures Bucket(env, file, pass, a + b, kind) == Bucket(env, file, pass, a, kind) + Bucket(env, file, pass, b, kind)
  {
    if b == [] {
      assert a + b == a;
    } else {
      var init := b[..|b| - 1];
      assert (a + b)[..|a + b| - 1] == a + init;
      assert (a + b)[|a + b| - 1] == b[|b| - 1];
      BucketAppend(env, file, pass, a, init, kind);
    }
  }

  /** `{code: node.text, location: node.startPosition}` for each export node, in traversal order. */
  function ExportRecords(nodes: seq<SyntaxNode>): (r: seq<ExportRecord>)
    ensures |r| == |nodes|
    ensures forall i :: 0 <= i < |nodes| ==> r[i] == ExportRecord(nodes[i].text, nodes[i].start)
  {
    if nodes == [] then [] else ExportRecords(nodes[..|nodes| - 1]) + [ExportRecord(nodes[|nodes| - 1].text, nodes[|nodes| - 1].start)]
  }

  /** The left-hand side `module.exports` or `exports.<name>`. */
  predicate AssignsExports(left: SyntaxNode) {
    left.kind == "member_expression" && (StartsWith(left.text, "exports.") || left.text == "module.exports")
  }

  /** The records the assignment pass pushes; it throws at the first assignment without a child 0. */
  function AssignmentExports(nodes: seq<SyntaxNode>): (r: Result<seq<ExportRecord>, AnalysisError>)
    ensures r.Failure? <==> exists i :: 0 <= i < |nodes| && nodes[i].children == []
    ensures r.Success? ==> |r.value| <= |nodes|
    ensures r.Success? ==> forall x :: x in r.value <==>
      exists i :: 0 <= i < |nodes| && nodes[i].children != [] && AssignsExports(nodes[i].children[0])
                  && x == ExportRecord(nodes[i].text, nodes[i].start)
  {
    if nodes == [] then Success([])
    else
      var node := nodes[|nodes| - 1];
      assert forall i :: 0 <= i < |nodes| - 1 ==> nodes[i] == nodes[..|nodes| - 1][i];
      match AssignmentExports(nodes[..|nodes| - 1])
      case Failure(e) => Failure(e)
      case Success(prior) =>
        if node.children == [] then Failure(MissingLeftOperand(node.start))
        else if AssignsExports(node.children[0]) then Success(prior + [ExportRecord(node.text, node.start)])
        else Success(prior)
  }

  /** One assignment node: a throw without child 0, else one record iff it assigns an export. */
  lemma AssignmentExportsSingle(node: SyntaxNode)
    ensures AssignmentExports([node]) ==
      if node.children == [] then Failure(MissingLeftOperand(node.start))
      else if AssignsExports(node.children[0]) then Success([ExportRecord(node.text, node.start)])
      else Success([])
  {
    assert [node][..0] == [];
    assert AssignmentExports([]) == Success([]);
    assert [] + [ExportRecord(node.text, node.start)] == [ExportRecord(node.text, node.start)];
  }

  /**
   * The pass runs node by node in traversal order: over two runs of nodes it throws
   * the first run's error, else the second's, else records the two runs' records in
   * sequence.
   */
  lemma {:induction false} AssignmentExportsAppend(a: seq<SyntaxNode>, b: seq<SyntaxNode>)
    ensures AssignmentExports(a + b) ==
      match AssignmentExports(a)
      case Failure(e) => Failure(e)
      case Success(p) =>
        match AssignmentExports(b)
        case Failure(e) => Failure(e)
        case Success(q) => Success(p + q)
    decreases |b|
  {
    if b == [] {
      assert a + b == a;
      if AssignmentExports(a).Success? {
        assert AssignmentExports(a).value + [] == AssignmentExports(a).value;
      }
    } else {
      var init, last := b[..|b| - 1], b[|b| - 1];
      assert (a + b)[..|a + b| - 1] == a + init;
      assert (a + b)[|a + b| - 1] == last;
      AssignmentExportsAppend(a, init);
      match AssignmentExports(a)
      case Failure(_) =>
      case Success(p) =>
        match AssignmentExports(init)
        case Failure(_) =>
        case Success(q) =>
          if last.children != [] && AssignsExports(last.children[0]) {
            assert p + q + [ExportRecord(last.text, last.start)] == p + (q + [ExportRecord(last.text, last.start)]);
          }
    }
  }

  /** Once the assignment pass has thrown, later nodes do not change the outcome. */
  lemma {:induction false} AssignmentFailureSticks(nodes: seq<SyntaxNode>, k: nat)
    requires k <= |nodes|
    requires AssignmentExports(nodes[..k]).Failure?
    ensures AssignmentExports(nodes) == AssignmentExports(nodes[..k])
    decreases |nodes| - k
  {
    if k < |nodes| {
      assert nodes[..k + 1][..k] == nodes[..k];
      AssignmentFailureSticks(nodes, k + 1);
    } else {
      assert nodes[..k] == nodes;
    }
  }

  /** `module.exports = {a: 1}` is recorded once, with the whole assignment as its code. */
  lemma ModuleExportsRecorded(p: Point)
    ensures var node := SyntaxNode("assignment_expression", "module.exports = {a: 1}", p, true, [
        SyntaxNode("member_expression", "module.exports", p, true, []),
        SyntaxNode("=", "=", p, false, []),
        SyntaxNode("object", "{a: 1}", p, true, [])]);
      AssignmentExports([node]) == Success([ExportRecord("module.exports = {a: 1}", p)])
  {
    var node := SyntaxNode("assignment_expression", "module.exports = {a: 1}", p, true, [
        SyntaxNode("member_expression", "module.exports", p, true, []),
        SyntaxNode("=", "=", p, false, []),
        SyntaxNode("object", "{a: 1}", p, true, [])]);
    assert [node][..0] == [];
    assert AssignmentExports([]) == Success([]);
    assert AssignsExports(node.children[0]);
    assert [] + [ExportRecord(node.text, node.start)] == [ExportRecord(node.text, node.start)];
  }

  /** An assignment to a plain variable, `x = 1`, is not an export. */
  lemma PlainAssignmentSkipped(p: Point)
    ensures var node := SyntaxNode("assignment_expression", "x = 1", p, true, [
        SyntaxNode("identifier", "x", p, true, []),
        SyntaxNode("=", "=", p, false, []),
        SyntaxNode("number", "1", p, true, [])]);
      AssignmentExports([node]) == Success([])
  {
    var node := SyntaxNode("assignment_expression", "x = 1", p, true, [
        SyntaxNode("identifier", "x", p, true, []),
        SyntaxNode("=", "=", p, false, []),
        SyntaxNode("number", "1", p, true, [])]);
    assert [node][..0] == [];
    assert !AssignsExports(node.children[0]);
  }

  /** What analyzeFile returns, pass by pass. */
  function Analysis(env: Env, file: string, root: SyntaxNode): Result<AnalysisResult, AnalysisError> {
    var importNodes := DescendantsOfType(root, ImportKinds);
    var callNodes := DescendantsOfType(root, CallKinds);
    var fromAssignments := AssignmentExports(DescendantsOfType(root, AssignmentKinds));
    if fromAssignments.Failure? then Failure(fromAssignments.error)
    else
      Success(AnalysisResult(
        if env.isAbsolute(file) then Internal else External,
        Buckets(Bucket(env, file, ImportPass, importNodes, Internal), Bucket(env, file, ImportPass, importNodes, External)),
        Buckets(Bucket(env, file, RequirePass, callNodes, Internal), Bucket(env, file, RequirePass, callNodes, External)),
        ExportRecords(DescendantsOfType(root, ExportKinds)) + fromAssignments.value))
  }

  /** The imports pass of analyzeFile. */
  method CollectImports(env: Env, file: string, importNodes: seq<SyntaxNode>)
    returns (internal: seq<Dependency>, external: seq<Dependency>)
    ensures internal == Bucket(env, file, ImportPass, importNodes, Internal)
    ensures external == Bucket(env, file, ImportPass, importNodes, External)
  {
    internal, external := [], [];
    for i := 0 to |importNodes|
      invariant internal == Bucket(env, file, ImportPass, importNodes[..i], Internal)
      invariant external == Bucket(env, file, ImportPass, importNodes[..i], External)
    {
      var node := importNodes[i];
      assert importNodes[..i + 1][..i] == importNodes[..i];
      var sourceNode := FindOfKind(NamedChildren(node), "string");
      if sourceNode.None? {
        continue;
      }
      var raw := StripQuotes(sourceNode.value.text);
      if raw == "" {
        continue;
      }
      var resolved: Option<string> := None;
      if IsInternal(raw) {
        resolved := Resolver.ResolveImportPath(env, file, raw);
      }
      var dep := Dependency(raw, resolved, node.start);
      if IsInternal(raw) {
        internal := internal + [dep];
      } else {
        external := external + [dep];
      }
    }
    assert importNodes[..|importNodes|] == importNodes;
  }

  /** The requires pass of analyzeFile. */
  method CollectRequires(env: Env, file: string, callExpressions: seq<SyntaxNode>)
    returns (internal: seq<Dependency>, external: seq<Dependency>)
    ensures internal == Bucket(env, file, RequirePass, callExpressions, Internal)
    ensures external == Bucket(env, file, RequirePass, callExpressions, External)
  {
    internal, external := [], [];
    for i := 0 to |callExpressions|
      invariant internal == Bucket(env, file, RequirePass, callExpressions[..i], Internal)
      invariant external == Bucket(env, file, RequirePass, callExpressions[..i], External)
    {
      var node := callExpressions[i];
      assert callExpressions[..i + 1][..i] == callExpressions[..i];
      var callee := Child(node, 0);
      var argsNode := Child(node, 1);
      if && callee.Some? && callee.value.kind == "identifier" && callee.value.text == "require"
         && argsNode.Some? && argsNode.value.kind == "arguments"
         && |NamedChildren(argsNode.value)| == 1
      {
        var arg := NamedChildren(argsNode.value)[0];
        if arg.kind == "string" {
          var raw := StripQuotes(arg.text);
          assert Specifier(RequirePass, node) == Some(raw);
          var resolved: Option<string> := None;
          if IsInternal(raw) {
            resolved := Resolver.ResolveImportPath(env, file, raw);
          }
          var dep := Dependency(raw, resolved, node.start);
          if IsInternal(raw) {
            internal := internal + [dep];
          } else {
            external := external + [dep];
          }
        }
      }
    }
    assert callExpressions[..|callExpressions|] == callExpressions;
  }

  /** The export-node pass of analyzeFile: the first records pushed into `exports`. */
  method CollectExports(exportNodes: seq<SyntaxNode>) returns (r: seq<ExportRecord>)
    ensures r == ExportRecords(exportNodes)
  {
    r := [];
    for i := 0 to |exportNodes|
      invariant r == ExportRecords(exportNodes[..i])
    {
      assert exportNodes[..i + 1][..i] == exportNodes[..i];
      r := r + [ExportRecord(exportNodes[i].text, exportNodes[i].start)];
    }
    assert exportNodes[..|exportNodes|] == exportNodes;
  }

  /** The assignment pass of analyzeFile: it appends to `exports`, or throws. */
  method CollectAssignmentExports(assignmentNodes: seq<SyntaxNode>, exports: seq<ExportRecord>)
    returns (r: Result<seq<ExportRecord>, AnalysisError>)
    ensures r.Failure? <==> AssignmentExports(assignmentNodes).Failure?
    ensures r.Failure? ==> r.error == AssignmentExports(assignmentNodes).error
    ensures r.Success? ==> r.value == exports + AssignmentExports(assignmentNodes).value
  {
    var acc := exports;
    for i := 0 to |assignmentNodes|
      invariant AssignmentExports(assignmentNodes[..i]).Success?
      invariant acc == exports + AssignmentExports(assignmentNodes[..i]).value
    {
      var node := assignmentNodes[i];
      assert assignmentNodes[..i + 1][..i] == assignmentNodes[..i];
      if |node.children| == 0 {
        AssignmentFailureSticks(assignmentNodes, i + 1);
        return Failure(MissingLeftOperand(node.start));
      }
      var left := node.children[0];
      if AssignsExports(left) {
        acc := acc + [ExportRecord(node.text, node.start)];
      }
    }
    assert assignmentNodes[..|assignmentNodes|] == assignmentNodes;
    return Success(acc);
  }

  /**
   * Records are only appended: at most one import record per `import_statement` node,
   * at most one require record per `call_expression` node, exactly one export record
   * per export node (first, in traversal order), plus at most one per assignment.
   */
  lemma RecordCounts(env: Env, file: string, root: SyntaxNode)
    requires Analysis(env, file, root).Success?
    ensures var a := Analysis(env, file, root).value;
      && |a.imports.internal| + |a.imports.external| <= |DescendantsOfType(root, ImportKinds)|
      && |a.requireCalls.internal| + |a.requireCalls.external| <= |DescendantsOfType(root, CallKinds)|
      && |DescendantsOfType(root, ExportKinds)| <= |a.exports|
      && |a.exports| <= |DescendantsOfType(root, ExportKinds)| + |DescendantsOfType(root, AssignmentKinds)|
      && a.exports[..|DescendantsOfType(root, ExportKinds)|] == ExportRecords(DescendantsOfType(root, ExportKinds))
  {
    BucketsPartition(env, file, ImportPass, DescendantsOfType(root, ImportKinds));
    BucketsPartition(env, file, RequirePass, DescendantsOfType(root, CallKinds));
    var a := Analysis(env, file, root).value;
    var e := ExportRecords(DescendantsOfType(root, ExportKinds));
    assert a.exports[..|e|] == e;
  }

  /**
   * The buckets are decided by the specifier's shape alone: internal records start with
   * `.` or `/` and carry what the resolver returns; external records never do and are
   * never resolved. The result's kind says whether the file path is absolute.
   */
  lemma ClassifiedRecords(env: Env, file: string, root: SyntaxNode)
    requires Analysis(env, file, root).Success?
    ensures var a := Analysis(env, file, root).value;
      && (a.kind == Internal <==> env.isAbsolute(file))
      && (forall d :: d in a.imports.internal + a.requireCalls.internal ==>
            IsInternal(d.moduleName) && d.resolved == Resolver.Resolution(env, file, d.moduleName))
      && (forall d :: d in a.imports.external + a.requireCalls.external ==>
            !IsInternal(d.moduleName) && d.resolved == None)
      && (forall d :: d in a.imports.internal + a.imports.external ==> d.moduleName != "")
  {
  }

  /**
   * A file whose tree holds no import, call, export or assignment node anywhere
   * (`const x = 1;`, say) yields empty lists everywhere.
   */
  lemma EmptyProgram(env: Env, file: string, root: SyntaxNode)
    requires forall m :: InSubtree(m, root) ==>
      m.kind !in ImportKinds && m.kind !in CallKinds && m.kind !in ExportKinds && m.kind !in AssignmentKinds
    ensures Analysis(env, file, root) ==
            Success(AnalysisResult(if env.isAbsolute(file) then Internal else External,
                                   Buckets([], []), Buckets([], []), []))
  {
    NoneOfKinds(root, ImportKinds);
    NoneOfKinds(root, CallKinds);
    NoneOfKinds(root, ExportKinds);
    NoneOfKinds(root, AssignmentKinds);
  }

  /** A string literal `''`: its one named child list and its stripped text. */
  lemma EmptyLiteral(p: Point)
    ensures var literal := SyntaxNode("string", "''", p, true, []);
      && NamedOnly([literal]) == [literal]
      && StripQuotes(literal.text) == ""
  {
    var literal := SyntaxNode("string", "''", p, true, []);
    assert [literal][..0] == [];
    assert "''"[..1] == "'";
    assert "'"[..0] == "";
  }

  /** The specifier of `require('')` is the empty string. */
  lemma EmptyRequireSpecifier(p: Point)
    ensures var literal := SyntaxNode("string", "''", p, true, []);
      var call := SyntaxNode("call_expression", "require('')", p, true, [
        SyntaxNode("identifier", "require", p, true, []),
        SyntaxNode("arguments", "('')", p, true, [literal])]);
      Specifier(RequirePass, call) == Some("")
  {
    var literal := SyntaxNode("string", "''", p, true, []);
    var args := SyntaxNode("arguments", "('')", p, true, [literal]);
    EmptyLiteral(p);
    assert NamedChildren(args) == [literal];
    var call := SyntaxNode("call_expression", "require('')", p, true, [
      SyntaxNode("identifier", "require", p, true, []), args]);
    assert IsRequireCall(call);
  }

  /** `require('')` is recorded as an external dependency with an empty specifier. */
  lemma EmptyRequire(env: Env, file: string, p: Point)
    ensures var literal := SyntaxNode("string", "''", p, true, []);
      var call := SyntaxNode("call_expression", "require('')", p, true, [
        SyntaxNode("identifier", "require", p, true, []),
        SyntaxNode("arguments", "('')", p, true, [literal])]);
      && Bucket(env, file, RequirePass, [call], External) == [Dependency("", None, p)]
      && Bucket(env, file, RequirePass, [call], Internal) == []
  {
    var literal := SyntaxNode("string", "''", p, true, []);
    var call := SyntaxNode("call_expression", "require('')", p, true, [
      SyntaxNode("identifier", "require", p, true, []),
      SyntaxNode("arguments", "('')", p, true, [literal])]);
    EmptyRequireSpecifier(p);
    assert [call][..0] == [];
    assert !IsInternal("");
  }

  /** `import ''` adds nothing to either bucket. */
  lemma EmptyImport(env: Env, file: string, p: Point)
    ensures var literal := SyntaxNode("string", "''", p, true, []);
      var imp := SyntaxNode("import_statement", "import ''", p, true, [literal]);
      && Bucket(env, file, ImportPass, [imp], External) == []
      && Bucket(env, file, ImportPass, [imp], Internal) == []
  {
    var literal := SyntaxNode("string", "''", p, true, []);
    EmptyLiteral(p);
    var imp := SyntaxNode("import_statement", "import ''", p, true, [literal]);
    assert NamedChildren(imp) == [literal];
    assert FindOfKind([literal], "string") == Some(literal);
    assert [imp][..0] == [];
  }

  /** analyzeFile: four passes over the tree, each pushing into the result's arrays. */
  method AnalyzeFile(env: Env, file: string, root: SyntaxNode) returns (r: Result<AnalysisResult, AnalysisError>)
    ensures r == Analysis(env, file, root)
  {
    var kind := if env.isAbsolute(file) then Internal else External;
    var importNodes := DescendantsOfType(root, ImportKinds);
    var callNodes := DescendantsOfType(root, CallKinds);
    var assignmentNodes := DescendantsOfType(root, AssignmentKinds);
    var importsInternal, importsExternal := CollectImports(env, file, importNodes);
    var requiresInternal, requiresExternal := CollectRequires(env, file, callNodes);
    var exports := CollectExports(DescendantsOfType(root, ExportKinds));
    var withAssignments := CollectAssignmentExports(assignmentNodes, exports);
    if withAssignments.Failure? {
      return Failure(withAssignments.error);
    }
    r := Success(AnalysisResult(
      kind,
      Buckets(importsInternal, importsExternal),
      Buckets(requiresInternal, requiresExternal),
      withAssignments.value));
  }

  /** How one parsed file is analysed; analyzeFiles uses `FileAnalysis`. */
  type Analyze = (string, SyntaxNode) -> Result<AnalysisResult, AnalysisError>

  function FileAnalysis(env: Env): Analyze {
    (file, tree) => Analysis(env, file, tree)
  }

  /**
   * What analyzeFiles returns: `allResults[file] = analyzeFile(file, tree)` for each
   * parsed file in order, the first thrown error ending the run.
   */
  function AllAnalyses(analyze: Analyze, trees: seq<(string, SyntaxNode)>): (r: Result<seq<(string, AnalysisResult)>, AnalysisError>)
    ensures r.Success? ==> DistinctKeys(r.value)
  {
    if trees == [] then Success([])
    else
      var (file, tree) := trees[|trees| - 1];
      match AllAnalyses(analyze, trees[..|trees| - 1])
      case Failure(e) => Failure(e)
      case Success(prior) =>
        match analyze(file, tree)
        case Failure(e) => Failure(e)
        case Success(a) => Success(Put(prior, file, a))
  }

  /** analyzeFiles succeeds iff every file's analysis does. */
  lemma {:induction false} AllAnalysesSucceed(analyze: Analyze, trees: seq<(string, SyntaxNode)>)
    ensures AllAnalyses(analyze, trees).Success? <==>
            forall i :: 0 <= i < |trees| ==> analyze(trees[i].0, trees[i].1).Success?
  {
    if trees != [] {
      var n := |trees| - 1;
      assert forall j :: 0 <= j < n ==> trees[..n][j] == trees[j];
      AllAnalysesSucceed(analyze, trees[..n]);
    }
  }

  /**
   * With distinct file keys, a successful run holds one result per file, in the same
   * order, each that file's analysis.
   */
  lemma {:induction false} AllAnalysesValues(analyze: Analyze, trees: seq<(string, SyntaxNode)>)
    requires DistinctKeys(trees)
    requires AllAnalyses(analyze, trees).Success?
    ensures Keys(AllAnalyses(analyze, trees).value) == Keys(trees)
    ensures var rs := AllAnalyses(analyze, trees).value;
      forall i :: 0 <= i < |rs| ==> analyze(trees[i].0, trees[i].1) == Success(rs[i].1)
  {
    if trees != [] {
      var n := |trees| - 1;
      var init := trees[..n];
      assert forall j :: 0 <= j < n ==> init[j] == trees[j];
      assert DistinctKeys(init);
      var (file, tree) := trees[n];
      var prior := AllAnalyses(analyze, init);
      AllAnalysesValues(analyze, init);
      var a := analyze(file, tree);
      assert file !in Keys(prior.value) by {
        forall j | 0 <= j < n ensures Keys(prior.value)[j] != file {
          assert trees[j].0 != trees[n].0;
        }
      }
      assert AllAnalyses(analyze, trees).value == prior.value + [(file, a.value)];
    }
  }

  /** A failed run fails with the error of the first file whose analysis fails. */
  lemma {:induction false} AllAnalysesFirstError(analyze: Analyze, trees: seq<(string, SyntaxNode)>)
    requires AllAnalyses(analyze, trees).Failure?
    ensures exists i :: (0 <= i < |trees|
        && analyze(trees[i].0, trees[i].1) == Failure(AllAnalyses(analyze, trees).error)
        && forall j :: 0 <= j < i ==> analyze(trees[j].0, trees[j].1).Success?)
  {
    var n := |trees| - 1;
    var init := trees[..n];
    assert forall j :: 0 <= j < n ==> init[j] == trees[j];
    if AllAnalyses(analyze, init).Failure? {
      AllAnalysesFirstError(analyze, init);
    } else {
      AllAnalysesSucceed(analyze, init);
      assert analyze(trees[n].0, trees[n].1) == Failure(AllAnalyses(analyze, trees).error);
    }
  }

  /** analyzeFiles: one analysis per parsed file, stored under that file. */
  method AnalyzeFiles(env: Env, parsedTrees: seq<(string, SyntaxNode)>)
    returns (r: Result<seq<(string, AnalysisResult)>, AnalysisError>)
    ensures r == AllAnalyses(FileAnalysis(env), parsedTrees)
  {
    var allResults: seq<(string, AnalysisResult)> := [];
    for i := 0 to |parsedTrees|
      invariant AllAnalyses(FileAnalysis(env), parsedTrees[..i]) == Success(allResults)
    {
      assert parsedTrees[..i + 1][..i] == parsedTrees[..i];
      var file := parsedTrees[i].0;
      var analysis := AnalyzeFile(env, file, parsedTrees[i].1);
      if analysis.Failure? {
        FirstErrorStops(FileAnalysis(env), parsedTrees, i + 1);
        return Failure(analysis.error);
      }
      allResults := Put(allResults, file, analysis.value);
    }
    assert parsedTrees[..|parsedTrees|] == parsedTrees;
    return Success(allResults);
  }

  /** Once a prefix of the files has failed, the rest do not change the outcome. */
  lemma {:induction false} FirstErrorStops(analyze: Analyze, trees: seq<(string, SyntaxNode)>, k: nat)
    requires k <= |trees|
    requires AllAnalyses(analyze, trees[..k]).Failure?
    ensures AllAnalyses(analyze, trees) == AllAnalyses(analyze, trees[..k])
    decreases |trees| - k
  {
    if k < |trees| {
      assert trees[..k + 1][..k] == trees[..k];
      FirstErrorStops(analyze, trees, k + 1);
    } else {
      assert trees[..k] == trees;
    }
  }
}

=== FILE: dict.dfy ===
/**
 * A plain JavaScript object used as a dictionary from strings: its entries in
 * insertion order, with keys that are distinct by construction.
 */
module Dict {
  function Keys<V>(d: seq<(string, V)>): (ks: seq<string>)
    ensures |ks| == |d|
    ensures forall i :: 0 <= i < |d| ==> ks[i] == d[i].0
  {
    seq(|d|, i requires 0 <= i < |d| => d[i].0)
  }

  predicate DistinctKeys<V>(d: seq<(string, V)>) {
    forall i, j :: 0 <= i < j < |d| ==> d[i].0 != d[j].0
  }

  /** `obj[k] = v`: an existing key keeps its position and takes the new value; a new key is appended. */
  function Put<V>(d: seq<(string, V)>, k: string, v: V): (r: seq<(string, V)>)
    requires DistinctKeys(d)
    ensures k in Keys(d) ==> Keys(r) == Keys(d)
    ensures k !in Keys(d) ==> r == d + [(k, v)]
    ensures forall i :: 0 <= i < |r| ==> r[i] == if r[i].0 == k then (k, v) else d[i]
    ensures DistinctKeys(r)
  {
    if k in Keys(d) then
      var r := seq(|d|, i requires 0 <= i < |d| => if d[i].0 == k then (k, v) else d[i]);
      assert Keys(r) == Keys(d);
      r
    else
      d + [(k, v)]
  }

  /** After `obj[k] = v` the keys are the old ones and `k`, and there is at most one more entry. */
  lemma PutKeys<V>(d: seq<(string, V)>, k: string, v: V)
    requires DistinctKeys(d)
    ensures forall x :: x in Keys(Put(d, k, v)) <==> x in Keys(d) || x == k
    ensures |Put(d, k, v)| <= |d| + 1
  {
    var r := Put(d, k, v);
    forall x | x in Keys(r) ensures x in Keys(d) || x == k {
      var i :| 0 <= i < |r| && Keys(r)[i] == x;
      if x != k {
        assert r[i] == d[i];
      }
    }
    forall x | x in Keys(d) ensures x in Keys(r) {
      var i :| 0 <= i < |d| && Keys(d)[i] == x;
      if k in Keys(d) {
        assert Keys(r)[i] == x;
      } else {
        assert r[i] == d[i];
      }
    }
    if k !in Keys(d) {
      assert r[|d|].0 == k;
    }
  }
}

=== FILE: generate_graph_data.dfy ===
/**
 * generateGraphData: fold the per-file analyses into an insertion-ordered node map
 * (last write wins on the kind) and an edge list without deduplication, then rename
 * the fields for the UI.
 */
module GraphBuilder {
  import opened Wrappers
  import opened Dict
  import opened Analyzer
  import opened SyntaxTree

  datatype Edge = Edge(from: string, to: string)

  /** The output shapes `{id, type}` and `{source, target}`. */
  datatype UiNode = UiNode(id: string, kind: Kind)
  datatype UiEdge = UiEdge(source: string, target: string)
  datatype UiGraph = UiGraph(nodes: seq<UiNode>, edges: seq<UiEdge>)

  /** `dep.resolved || dep.module`: an empty resolved path is falsy too. */
  function Target(d: Dependency): (t: string)
    ensures d.resolved.Some? && d.resolved.value != "" ==> t == d.resolved.value
    ensures d.resolved.None? || d.resolved.value == "" ==> t == d.moduleName
  {
    if d.resolved.Some? && d.resolved.value != "" then d.resolved.value else d.moduleName
  }

  /** One `graph.nodes.set(id, kind)` call. */
  type Write = (string, Kind)

  // ---------------------------------------------------------------------------
  // The Map after a sequence of `set` calls

  /** Keys in the order a Map iterates them: the order in which each was first set. */
  function FirstOrder(ws: seq<Write>): seq<string> {
    if ws == [] then []
    else
      var prior := FirstOrder(ws[..|ws| - 1]);
      if ws[|ws| - 1].0 in prior then prior else prior + [ws[|ws| - 1].0]
  }

  /** The value each key holds: the one from its last `set`. */
  function LastKinds(ws: seq<Write>): map<string, Kind> {
    if ws == [] then map[] else LastKinds(ws[..|ws| - 1])[ws[|ws| - 1].0 := ws[|ws| - 1].1]
  }

  function WrittenIds(ws: seq<Write>): set<string> {
    set i | 0 <= i < |ws| :: ws[i].0
  }

  predicate NoDuplicates(s: seq<string>) {
    forall i, j :: 0 <= i < j < |s| ==> s[i] != s[j]
  }

  /**
   * The Map's keys are unique, they are exactly the ids ever set, and there are
   * no more of them than `set` calls.
   */
  lemma {:induction false} FirstOrderKeys(ws: seq<Write>)
    ensures NoDuplicates(FirstOrder(ws))
    ensures forall id :: id in FirstOrder(ws) <==> id in WrittenIds(ws)
    ensures LastKinds(ws).Keys == WrittenIds(ws)
    ensures |FirstOrder(ws)| <= |ws|
  {
    if ws != [] {
      var prefix := ws[..|ws| - 1];
      FirstOrderKeys(prefix);
      assert WrittenIds(ws) == WrittenIds(prefix) + {ws[|ws| - 1].0} by {
        forall id | id in WrittenIds(ws) ensures id in WrittenIds(prefix) + {ws[|ws| - 1].0} {
          var i :| 0 <= i < |ws| && ws[i].0 == id;
          if i < |ws| - 1 {
            assert prefix[i] == ws[i];
          }
        }
        forall id | id in WrittenIds(prefix) ensures id in WrittenIds(ws) {
          var i :| 0 <= i < |prefix| && prefix[i].0 == id;
          assert ws[i] == prefix[i];
        }
      }
    }
  }

  /** A later `set` never moves a key: the earlier key order is a prefix of the later one. */
  lemma {:induction false} FirstOrderPrefix(ws: seq<Write>, more: seq<Write>)
    ensures |FirstOrder(ws)| <= |FirstOrder(ws + more)|
    ensures FirstOrder(ws) == FirstOrder(ws + more)[..|FirstOrder(ws)|]
    decreases |more|
  {
    if more == [] {
      assert ws + more == ws;
    } else {
      var init := more[..|more| - 1];
      FirstOrderPrefix(ws, init);
      assert (ws + more)[..|ws + more| - 1] == ws + init;
    }
  }

  /** The kind a key holds is the kind of the last `set` of that key. */
  lemma {:induction false} LastWriteWins(ws: seq<Write>, id: string)
    requires id in LastKinds(ws)
    ensures exists j :: 0 <= j < |ws| && ws[j] == (id, LastKinds(ws)[id])
                        && forall k :: j < k < |ws| ==> ws[k].0 != id
  {
    var last := |ws| - 1;
    var prefix := ws[..last];
    if ws[last].0 != id {
      LastWriteWins(prefix, id);
      var j :| 0 <= j < |prefix| && prefix[j] == (id, LastKinds(prefix)[id])
               && forall k :: j < k < |prefix| ==> prefix[k].0 != id;
      assert ws[j] == prefix[j];
      assert forall k :: j < k < |ws| ==> ws[k].0 != id by {
        forall k | j < k < |ws| ensures ws[k].0 != id {
          if k < last {
            assert ws[k] == prefix[k];
          }
        }
      }
    }
  }

  // ---------------------------------------------------------------------------
  // What the fold writes, file by file

  /** `addEdges(deps, kind)`: one `set` per dependency, of its target. */
  function DepWrites(deps: seq<Dependency>, kind: Kind): (ws: seq<Write>)
    ensures |ws| == |deps|
  {
    if deps == [] then []
    else DepWrites(deps[..|deps| - 1], kind) + [(Target(deps[|deps| - 1]), kind)]
  }

  /** `addEdges(deps, kind)`: one edge per dependency, from the file to the target. */
  function DepEdges(file: string, deps: seq<Dependency>): (es: seq<Edge>)
    ensures |es| == |deps|
  {
    if deps == [] then []
    else DepEdges(file, deps[..|deps| - 1]) + [Edge(file, Target(deps[|deps| - 1]))]
  }

  /** Dependency i gives the i-th `set` and the i-th edge: from the file, to its target. */
  lemma {:induction false} DepStepAt(file: string, deps: seq<Dependency>, kind: Kind, i: nat)
    requires i < |deps|
    ensures DepWrites(deps, kind)[i] == (Target(deps[i]), kind)
    ensures DepEdges(file, deps)[i] == Edge(file, Target(deps[i]))
  {
    if i < |deps| - 1 {
      DepStepAt(file, deps[..|deps| - 1], kind, i);
    }
  }

  function FileWrites(file: string, a: AnalysisResult): seq<Write> {
    [(file, a.kind)]
    + DepWrites(a.imports.internal, Internal) + DepWrites(a.imports.external, External)
    + DepWrites(a.requireCalls.internal, Internal) + DepWrites(a.requireCalls.external, External)
  }

  /** Edge order within a file: imports.internal, imports.external, requires.internal, requires.external. */
  function FileEdges(file: string, a: AnalysisResult): seq<Edge> {
    DepEdges(file, a.imports.internal) + DepEdges(file, a.imports.external)
    + DepEdges(file, a.requireCalls.internal) + DepEdges(file, a.requireCalls.external)
  }

  function DepCount(a: AnalysisResult): nat {
    |a.imports.internal| + |a.imports.external| + |a.requireCalls.internal| + |a.requireCalls.external|
  }

  function Writes(results: seq<(string, AnalysisResult)>): seq<Write> {
    if results == [] then []
    else Writes(results[..|results| - 1]) + FileWrites(results[|results| - 1].0, results[|results| - 1].1)
  }

  function Edges(results: seq<(string, AnalysisResult)>): seq<Edge> {
    if results == [] then []
    else Edges(results[..|results| - 1]) + FileEdges(results[|results| - 1].0, results[|results| - 1].1)
  }

  function TotalDeps(results: seq<(string, AnalysisResult)>): nat {
    if results == [] then 0
    else TotalDeps(results[..|results| - 1]) + DepCount(results[|results| - 1].1)
  }

  /** `Array.from(nodes).map(...)` and `edges.map(...)`: field renaming, same order, same length. */
  function ToUi(order: seq<string>, kinds: map<string, Kind>, edges: seq<Edge>): (g: UiGraph)
    requires forall id :: id in order ==> id in kinds
    ensures |g.nodes| == |order| && |g.edges| == |edges|
    ensures forall i :: 0 <= i < |order| ==> g.nodes[i] == UiNode(order[i], kinds[order[i]])
    ensures forall i :: 0 <= i < |edges| ==> g.edges[i] == UiEdge(edges[i].from, edges[i].to)
  {
    UiGraph(
      seq(|order|, i requires 0 <= i < |order| => UiNode(order[i], kinds[order[i]])),
      seq(|edges|, i requires 0 <= i < |edges| => UiEdge(edges[i].from, edges[i].to)))
  }

  /** The graph generateGraphData returns. */
  function GraphOf(results: seq<(string, AnalysisResult)>): UiGraph {
    var ws := Writes(results);
    FirstOrderKeys(ws);
    ToUi(FirstOrder(ws), LastKinds(ws), Edges(results))
  }

  // ---------------------------------------------------------------------------
  // Properties of the graph

  function NodeIds(g: UiGraph): set<string> {
    set i | 0 <= i < |g.nodes| :: g.nodes[i].id
  }

  function FileSet(results: seq<(string, AnalysisResult)>): set<string> {
    set i | 0 <= i < |results| :: results[i].0
  }

  function Targets(es: seq<Edge>): set<string> {
    set i | 0 <= i < |es| :: es[i].to
  }

  function Sources(es: seq<Edge>): set<string> {
    set i | 0 <= i < |es| :: es[i].from
  }

  lemma WrittenIdsAppend(a: seq<Write>, b: seq<Write>)
    ensures WrittenIds(a + b) == WrittenIds(a) + WrittenIds(b)
  {
    forall id | id in WrittenIds(a + b) ensures id in WrittenIds(a) + WrittenIds(b) {
      var i :| 0 <= i < |a + b| && (a + b)[i].0 == id;
      if i < |a| {
        assert a[i] == (a + b)[i];
      } else {
        assert b[i - |a|] == (a + b)[i];
      }
    }
    forall id | id in WrittenIds(a) ensures id in WrittenIds(a + b) {
      var i :| 0 <= i < |a| && a[i].0 == id;
      assert (a + b)[i] == a[i];
    }
    forall id | id in WrittenIds(b) ensures id in WrittenIds(a + b) {
      var i :| 0 <= i < |b| && b[i].0 == id;
      assert (a + b)[|a| + i] == b[i];
    }
  }

  lemma EndpointsAppend(a: seq<Edge>, b: seq<Edge>)
    ensures Targets(a + b) == Targets(a) + Targets(b)
    ensures Sources(a + b) == Sources(a) + Sources(b)
  {
    forall i | 0 <= i < |a + b|
      ensures (a + b)[i].to in Targets(a) + Targets(b) && (a + b)[i].from in Sources(a) + Sources(b)
    {
      if i < |a| {
        assert a[i] == (a + b)[i];
      } else {
        assert b[i - |a|] == (a + b)[i];
      }
    }
    forall i | 0 <= i < |a|
      ensures a[i].to in Targets(a + b) && a[i].from in Sources(a + b)
    {
      assert (a + b)[i] == a[i];
    }
    forall i | 0 <= i < |b|
      ensures b[i].to in Targets(a + b) && b[i].from in Sources(a + b)
    {
      assert (a + b)[|a| + i] == b[i];
    }
  }

  /** The ids `addEdges` sets are exactly the targets of the edges it pushes, all from the file. */
  lemma DepEndpoints(file: string, deps: seq<Dependency>, kind: Kind)
    ensures WrittenIds(DepWrites(deps, kind)) == Targets(DepEdges(file, deps))
    ensures Sources(DepEdges(file, deps)) <= {file}
  {
    var ws, es := DepWrites(deps, kind), DepEdges(file, deps);
    forall id | id in WrittenIds(ws) ensures id in Targets(es) {
      var i :| 0 <= i < |ws| && ws[i].0 == id;
      DepStepAt(file, deps, kind, i);
      assert es[i].to == id;
    }
    forall id | id in Targets(es) ensures id in WrittenIds(ws) {
      var i :| 0 <= i < |es| && es[i].to == id;
      DepStepAt(file, deps, kind, i);
      assert ws[i].0 == id;
    }
    forall i | 0 <= i < |es| ensures es[i].from == file {
      DepStepAt(file, deps, kind, i);
    }
  }

  lemma FileEndpoints(file: string, a: AnalysisResult)
    ensures WrittenIds(FileWrites(file, a)) == {file} + Targets(FileEdges(file, a))
    ensures Sources(FileEdges(file, a)) <= {file}
  {
    var w0 := [(file, a.kind)];
    var w1, w2 := DepWrites(a.imports.internal, Internal), DepWrites(a.imports.external, External);
    var w3, w4 := DepWrites(a.requireCalls.internal, Internal), DepWrites(a.requireCalls.external, External);
    var e1, e2 := DepEdges(file, a.imports.internal), DepEdges(file, a.imports.external);
    var e3, e4 := DepEdges(file, a.requireCalls.internal), DepEdges(file, a.requireCalls.external);
    DepEndpoints(file, a.imports.internal, Internal);
    DepEndpoints(file, a.imports.external, External);
    DepEndpoints(file, a.requireCalls.internal, Internal);
    DepEndpoints(file, a.requireCalls.external, External);
    assert w0[0].0 == file;
    assert WrittenIds(w0) == {file};
    WrittenIdsAppend(w0, w1);
    WrittenIdsAppend(w0 + w1, w2);
    WrittenIdsAppend(w0 + w1 + w2, w3);
    WrittenIdsAppend(w0 + w1 + w2 + w3, w4);
    assert WrittenIds(FileWrites(file, a))
        == {file} + Targets(e1) + Targets(e2) + Targets(e3) + Targets(e4);
    EndpointsAppend(e1, e2);
    EndpointsAppend(e1 + e2, e3);
    EndpointsAppend(e1 + e2 + e3, e4);
    assert Targets(FileEdges(file, a)) == Targets(e1) + Targets(e2) + Targets(e3) + Targets(e4);
  }

  /**
   * Every id the fold sets is an analysed file or the target of an edge, and
   * conversely; every edge starts at an analysed file.
   */
  lemma {:induction false} WrittenIdsAreFilesAndTargets(results: seq<(string, AnalysisResult)>)
    ensures WrittenIds(Writes(results)) == FileSet(results) + Targets(Edges(results))
    ensures Sources(Edges(results)) <= FileSet(results)
  {
    if results != [] {
      var prefix, last := results[..|results| - 1], results[|results| - 1];
      WrittenIdsAreFilesAndTargets(prefix);
      WrittenIdsAppend(Writes(prefix), FileWrites(last.0, last.1));
      EndpointsAppend(Edges(prefix), FileEdges(last.0, last.1));
      FileEndpoints(last.0, last.1);
      assert FileSet(results) == FileSet(prefix) + {last.0} by {
        forall f | f in FileSet(results) ensures f in FileSet(prefix) + {last.0} {
          var i :| 0 <= i < |results| && results[i].0 == f;
          if i < |results| - 1 {
            assert prefix[i] == results[i];
          }
        }
        forall f | f in FileSet(prefix) ensures f in FileSet(results) {
          var i :| 0 <= i < |prefix| && prefix[i].0 == f;
          assert results[i] == prefix[i];
        }
      }
    }
  }

  /** One `set` per file and one per edge. */
  lemma {:induction false} WritesCount(results: seq<(string, AnalysisResult)>)
    ensures |Writes(results)| == |results| + |Edges(results)|
    ensures |Edges(results)| == TotalDeps(results)
  {
    if results != [] {
      WritesCount(results[..|results| - 1]);
    }
  }

  /**
   * Edges are not deduplicated: there is one per recorded dependency, summed over the
   * four lists of every file.
   */
  lemma EdgeCount(results: seq<(string, AnalysisResult)>)
    ensures |GraphOf(results).edges| == TotalDeps(results)
  {
    WritesCount(results);
  }

  lemma EdgesSnoc(results: seq<(string, AnalysisResult)>, r: (string, AnalysisResult))
    ensures Edges(results + [r]) == Edges(results) + FileEdges(r.0, r.1)
  {
    assert (results + [r])[..|results|] == results;
  }

  /** Edges follow the file iteration order: the edges of two runs in sequence are the two edge lists in sequence. */
  lemma {:induction false} EdgesAppend(a: seq<(string, AnalysisResult)>, b: seq<(string, AnalysisResult)>)
    ensures Edges(a + b) == Edges(a) + Edges(b)
    decreases |b|
  {
    if b == [] {
      assert a + b == a;
    } else {
      var init, last := b[..|b| - 1], b[|b| - 1];
      var f := FileEdges(last.0, last.1);
      assert b == init + [last];
      calc {
        Edges(a + b);
        { assert a + b == (a + init) + [last]; }
        Edges((a + init) + [last]);
        { EdgesSnoc(a + init, last); }
        Edges(a + init) + f;
        { EdgesAppend(a, init); }
        (Edges(a) + Edges(init)) + f;
        { SeqAssoc(Edges(a), Edges(init), f); }
        Edges(a) + (Edges(init) + f);
        { EdgesSnoc(init, last); }
        Edges(a) + Edges(b);
      }
    }
  }

  lemma SeqAssoc<T>(x: seq<T>, y: seq<T>, z: seq<T>)
    ensures (x + y) + z == x + (y + z)
  {
  }

  /** Node ids are unique, and there are no more nodes than files plus edges. */
  lemma NodeIdsUnique(results: seq<(string, AnalysisResult)>)
    ensures forall i, j :: 0 <= i < j < |GraphOf(results).nodes| ==>
              GraphOf(results).nodes[i].id != GraphOf(results).nodes[j].id
    ensures |GraphOf(results).nodes| <= |results| + |GraphOf(results).edges|
  {
    FirstOrderKeys(Writes(results));
    WritesCount(results);
  }

  /** The nodes are exactly the analysed files and the edge targets. */
  lemma NodesAreFilesAndTargets(results: seq<(string, AnalysisResult)>)
    ensures NodeIds(GraphOf(results)) == FileSet(results) + Targets(Edges(results))
  {
    var ws := Writes(results);
    var g := GraphOf(results);
    FirstOrderKeys(ws);
    WrittenIdsAreFilesAndTargets(results);
    forall id | id in NodeIds(g) ensures id in WrittenIds(ws) {
      var i :| 0 <= i < |g.nodes| && g.nodes[i].id == id;
      assert FirstOrder(ws)[i] == id;
    }
    forall id | id in WrittenIds(ws) ensures id in NodeIds(g) {
      assert id in FirstOrder(ws);
      var i :| 0 <= i < |FirstOrder(ws)| && FirstOrder(ws)[i] == id;
      assert g.nodes[i].id == id;
    }
  }

  /** Every edge starts at an analysed file, and both of its ends are nodes of the graph. */
  lemma EdgeEndpointsAreNodes(results: seq<(string, AnalysisResult)>)
    ensures forall e :: e in GraphOf(results).edges ==>
              e.source in FileSet(results) && e.source in NodeIds(GraphOf(results))
              && e.target in NodeIds(GraphOf(results))
  {
    var g := GraphOf(results);
    var es := Edges(results);
    NodesAreFilesAndTargets(results);
    WrittenIdsAreFilesAndTargets(results);
    forall e | e in g.edges
      ensures e.source in FileSet(results) && e.target in Targets(es)
    {
      var k :| 0 <= k < |g.edges| && g.edges[k] == e;
      assert es[k].from == e.source && es[k].to == e.target;
    }
  }

  /**
   * A node's kind is the one from the last `set` of its id: an id written twice keeps
   * its first position but takes the later kind.
   */
  lemma NodeKindIsLastWrite(results: seq<(string, AnalysisResult)>, i: nat)
    requires i < |GraphOf(results).nodes|
    ensures exists j :: 0 <= j < |Writes(results)|
              && Writes(results)[j] == (GraphOf(results).nodes[i].id, GraphOf(results).nodes[i].kind)
              && forall k :: j < k < |Writes(results)| ==> Writes(results)[k].0 != GraphOf(results).nodes[i].id
  {
    var ws := Writes(results);
    FirstOrderKeys(ws);
    var id := FirstOrder(ws)[i];
    var n := GraphOf(results).nodes[i];
    assert n == UiNode(id, LastKinds(ws)[id]);
    LastWriteWins(ws, id);
    var j :| 0 <= j < |ws| && ws[j] == (id, LastKinds(ws)[id]) && forall k :: j < k < |ws| ==> ws[k].0 != id;
    assert ws[j] == (n.id, n.kind);
  }

  /**
   * A file node relabelled by a later dependency: `a` is analysed as external (its path
   * is not absolute), then `b` imports `./a`, resolved to `a`. The node `a` stays first
   * and becomes internal.
   */
  lemma RelabelledFileNode(p: Point)
    ensures var empty := Buckets([], []);
      var a := AnalysisResult(External, empty, empty, []);
      var b := AnalysisResult(Internal, Buckets([Dependency("./a", Some("a"), p)], []), empty, []);
      GraphOf([("a", a), ("/b", b)]).nodes == [UiNode("a", Internal), UiNode("/b", Internal)]
  {
    var empty := Buckets([], []);
    var a := AnalysisResult(External, empty, empty, []);
    var d := Dependency("./a", Some("a"), p);
    var b := AnalysisResult(Internal, Buckets([d], []), empty, []);
    var rs := [("a", a), ("/b", b)];
    assert rs[..1] == [("a", a)];
    assert [("a", a)][..0] == [];
    assert [d][..0] == [];
    assert DepWrites([d], Internal) == [("a", Internal)];
    assert FileWrites("a", a) == [("a", External)];
    assert FileWrites("/b", b) == [("/b", Internal), ("a", Internal)];
    assert Writes(rs[..1]) == [("a", External)];
    var ws := Writes(rs);
    assert ws == [("a", External), ("/b", Internal), ("a", Internal)];
    assert ws[..2][..1] == ws[..1] == [("a", External)];
    assert ws[..1][..0] == [];
    assert ws[..2] == [("a", External), ("/b", Internal)];
    assert FirstOrder(ws[..1]) == ["a"];
    assert FirstOrder(ws[..2]) == ["a", "/b"];
    assert FirstOrder(ws) == ["a", "/b"];
    assert LastKinds(ws[..1]) == map["a" := External];
    assert LastKinds(ws[..2]) == map["a" := External, "/b" := Internal];
    assert LastKinds(ws) == map["a" := Internal, "/b" := Internal];
  }

  lemma AppendAssoc4<T>(a: seq<T>, b: seq<T>, c: seq<T>, d: seq<T>, e: seq<T>)
    ensures a + b + c + d + e == a + (b + c + d + e)
  {
  }

  lemma AppendAssoc5<T>(a: seq<T>, b: seq<T>, c: seq<T>, d: seq<T>, e: seq<T>, f: seq<T>)
    ensures a + b + c + d + e + f == a + (b + c + d + e + f)
  {
  }

  // ---------------------------------------------------------------------------
  // The accumulator the source mutates

  class Graph {
    var order: seq<string>          // the Map's iteration order
    var kinds: map<string, Kind>    // the Map's contents
    var edges: seq<Edge>
    ghost var writes: seq<Write>    // every `set` so far

    ghost predicate Valid()
      reads this
    {
      order == FirstOrder(writes) && kinds == LastKinds(writes)
    }

    constructor ()
      ensures Valid() && writes == [] && edges == []
    {
      order, kinds, edges, writes := [], map[], [], [];
    }

    /** `graph.nodes.set(id, kind)` */
    method Set(id: string, kind: Kind)
      requires Valid()
      modifies this
      ensures Valid() && writes == old(writes) + [(id, kind)] && edges == old(edges)
      ensures order == if id in old(kinds) then old(order) else old(order) + [id]
      ensures kinds == old(kinds)[id := kind]
    {
      FirstOrderKeys(writes);
      if id !in kinds {
        order := order + [id];
      }
      kinds := kinds[id := kind];
      writes := writes + [(id, kind)];
      assert writes[..|writes| - 1] == old(writes);
    }

    /** One iteration of `addEdges`: set the target's kind, push an edge to it. */
    method AddEdge(file: string, dep: Dependency, kind: Kind)
      requires Valid()
      modifies this
      ensures Valid()
      ensures writes == old(writes) + [(Target(dep), kind)]
      ensures edges == old(edges) + [Edge(file, Target(dep))]
    {
      var target := if dep.resolved.Some? && dep.resolved.value != "" then dep.resolved.value else dep.moduleName;
      Set(target, kind);
      edges := edges + [Edge(file, target)];
    }

    /** The `addEdges` closure: one `set` and one edge per dependency, in order. */
    method AddEdges(file: string, deps: seq<Dependency>, kind: Kind)
      requires Valid()
      modifies this
      ensures Valid()
      ensures writes == old(writes) + DepWrites(deps, kind)
      ensures edges == old(edges) + DepEdges(file, deps)
    {
      for i := 0 to |deps|
        invariant Valid()
        invariant writes == old(writes) + DepWrites(deps[..i], kind)
        invariant edges == old(edges) + DepEdges(file, deps[..i])
      {
        var prefix := deps[..i];
        assert deps[..i + 1][..i] == prefix;
        AddEdge(file, deps[i], kind);
        assert DepWrites(deps[..i + 1], kind) == DepWrites(prefix, kind) + [(Target(deps[i]), kind)];
        assert DepEdges(file, deps[..i + 1]) == DepEdges(file, prefix) + [Edge(file, Target(deps[i]))];
        SeqAssoc(old(writes), DepWrites(prefix, kind), [(Target(deps[i]), kind)]);
        SeqAssoc(old(edges), DepEdges(file, prefix), [Edge(file, Target(deps[i]))]);
      }
      assert deps[..|deps|] == deps;
    }

    /** One iteration of the loop over the analysed files. */
    method AddFile(file: string, analysis: AnalysisResult)
      requires Valid()
      modifies this
      ensures Valid()
      ensures writes == old(writes) + FileWrites(file, analysis)
      ensures edges == old(edges) + FileEdges(file, analysis)
    {
      ghost var w0, e0 := writes, edges;
      Set(file, analysis.kind);
      AddEdges(file, analysis.imports.internal, Internal);
      AddEdges(file, analysis.imports.external, External);
      AddEdges(file, analysis.requireCalls.internal, Internal);
      AddEdges(file, analysis.requireCalls.external, External);
      AppendAssoc5(w0, [(file, analysis.kind)], DepWrites(analysis.imports.internal, Internal),
        DepWrites(analysis.imports.external, External), DepWrites(analysis.requireCalls.internal, Internal),
        DepWrites(analysis.requireCalls.external, External));
      AppendAssoc4(e0, DepEdges(file, analysis.imports.internal), DepEdges(file, analysis.imports.external),
        DepEdges(file, analysis.requireCalls.internal), DepEdges(file, analysis.requireCalls.external));
    }
  }

  /** generateGraphData */
  method GenerateGraphData(allResults: seq<(string, AnalysisResult)>) returns (ui: UiGraph)
    ensures ui == GraphOf(allResults)
  {
    var graph := new Graph();
    for i := 0 to |allResults|
      invariant graph.Valid()
      invariant graph.writes == Writes(allResults[..i])
      invariant graph.edges == Edges(allResults[..i])
    {
      assert allResults[..i + 1][..i] == allResults[..i];
      graph.AddFile(allResults[i].0, allResults[i].1);
    }
    assert allResults[..|allResults|] == allResults;
    FirstOrderKeys(graph.writes);
    ui := ToUi(graph.order, graph.kinds, graph.edges);
  }
}

=== FILE: get_source_files.dfy ===
/**
 * Source-file discovery: `getSourceFiles(dir)` lists `dir`, stats every entry, descends
 * into sub-directories other than `node_modules` and dot-directories, and collects the
 * regular files with a JavaScript or TypeScript extension, depth-first in listing order.
 *
 * The file system is a tree of entries in listing order. `path.join` is the injected
 * `Env.join`; a failing `readdir` or `stat` rejects the whole walk, which the model
 * returns as a `Failure`.
 */
module SourceFiles {
  import opened Wrappers
  import opened Text
  import opened Platform

  const SourceExtensions: seq<string> := [".js", ".ts", ".jsx", ".tsx"]

  /** A directory entry as `readdir` names it and `stat` describes it. */
  datatype Entry =
    | File(name: string)                      // stat: a regular file
    | Dir(name: string, entries: seq<Entry>)  // stat: a directory, listed in this order
    | Unlistable(name: string)                // stat: a directory, but readdir fails on it
    | Special(name: string)                   // stat: neither a file nor a directory
    | Dangling(name: string)                  // stat fails (a broken link, a vanished entry)

  datatype FsError = ReadDirFailed(path: string) | StatFailed(path: string)

  type Walked = Result<seq<string>, FsError>

  /** `stats.isDirectory()` */
  predicate IsDirectory(e: Entry) {
    e.Dir? || e.Unlistable?
  }

  /** Directories the walk never enters. */
  predicate Pruned(name: string) {
    name == "node_modules" || StartsWith(name, ".")
  }

  /** `extensions.some(ext => file.endsWith(ext))` */
  predicate IsSourceName(name: string) {
    exists i :: 0 <= i < |SourceExtensions| && EndsWith(name, SourceExtensions[i])
  }

  /** Two steps in sequence: the first failure wins, otherwise the paths are concatenated. */
  function Then(a: Walked, b: Walked): (r: Walked)
    ensures r.Success? <==> a.Success? && b.Success?
    ensures r.Success? ==> r.value == a.value + b.value
    ensures a.Failure? ==> r == a
    ensures a.Success? && b.Failure? ==> r == b
  {
    if a.Failure? then a
    else if b.Failure? then b
    else Success(a.value + b.value)
  }

  /** What `getSourceFiles(dir)` resolves to when `dir` is the entry `root`. */
  function Walk(env: Env, dir: string, root: Entry): Walked
    decreases root, 2
  {
    if root.Dir? then WalkEntries(env, dir, root.entries) else Failure(ReadDirFailed(dir))
  }

  /** The paths pushed for a listing, in order. */
  function WalkEntries(env: Env, dir: string, es: seq<Entry>): Walked
    decreases es, 1
  {
    if es == [] then Success([])
    else Then(WalkEntries(env, dir, es[..|es| - 1]), Visit(env, dir, es[|es| - 1]))
  }

  /** The paths pushed for one entry of the directory `dir`. */
  function Visit(env: Env, dir: string, e: Entry): Walked
    decreases e, 3
  {
    var path := env.join(dir, e.name);
    if e.Dangling? then Failure(StatFailed(path))
    else if IsDirectory(e) && !Pruned(e.name) then Walk(env, path, e)
    else if e.File? && IsSourceName(e.name) then Success([path])
    else Success([])
  }

  /**
   * The walk itself, recursive and in listing order, stopping at the first failing
   * `readdir` or `stat`.
   */
  method GetSourceFiles(env: Env, dir: string, root: Entry) returns (r: Walked)
    ensures r == Walk(env, dir, root)
    decreases root
  {
    if !root.Dir? {
      return Failure(ReadDirFailed(dir));
    }
    var listing := root.entries;
    var files := [];
    for i := 0 to |listing|
      invariant WalkEntries(env, dir, listing[..i]) == Success(files)
    {
      var entry := listing[i];
      var filePath := env.join(dir, entry.name);
      assert listing[..i + 1][..i] == listing[..i];
      if entry.Dangling? {
        FailureStops(env, dir, listing, i + 1);
        return Failure(StatFailed(filePath));
      }
      if IsDirectory(entry) && !Pruned(entry.name) {
        var sub := GetSourceFiles(env, filePath, entry);
        if sub.Failure? {
          FailureStops(env, dir, listing, i + 1);
          return sub;
        }
        assert Visit(env, dir, entry) == sub;
        files := files + sub.value;
      } else if entry.File? && IsSourceName(entry.name) {
        files := files + [filePath];
      } else {
        assert Visit(env, dir, entry) == Success([]);
        assert files + [] == files;
      }
    }
    assert listing[..|listing|] == listing;
    return Success(files);
  }

  // ---------------------------------------------------------------------------
  // Listing order

  lemma ThenAssoc(a: Walked, b: Walked, c: Walked)
    ensures Then(Then(a, b), c) == Then(a, Then(b, c))
  {
    if a.Success? && b.Success? && c.Success? {
      assert (a.value + b.value) + c.value == a.value + (b.value + c.value);
    }
  }

  /**
   * Output order is listing order: the walk of two consecutive runs of a listing is
   * the walk of the first followed by the walk of the second.
   */
  lemma {:induction false} EntriesAppend(env: Env, dir: string, a: seq<Entry>, b: seq<Entry>)
    ensures WalkEntries(env, dir, a + b) == Then(WalkEntries(env, dir, a), WalkEntries(env, dir, b))
    decreases |b|
  {
    if b == [] {
      assert a + b == a;
      if WalkEntries(env, dir, a).Success? {
        assert WalkEntries(env, dir, a).value + [] == WalkEntries(env, dir, a).value;
      }
    } else {
      var init, last := b[..|b| - 1], b[|b| - 1];
      assert (a + b)[..|a + b| - 1] == a + init;
      EntriesAppend(env, dir, a, init);
      ThenAssoc(WalkEntries(env, dir, a), WalkEntries(env, dir, init), Visit(env, dir, last));
    }
  }

  /** A sub-directory's results are spliced in at that entry's position. */
  lemma Splice(env: Env, dir: string, before: seq<Entry>, e: Entry, after: seq<Entry>)
    ensures WalkEntries(env, dir, before + [e] + after)
         == Then(Then(WalkEntries(env, dir, before), Visit(env, dir, e)), WalkEntries(env, dir, after))
  {
    EntriesAppend(env, dir, before + [e], after);
    assert (before + [e])[..|before|] == before;
  }

  /** Once a prefix of the listing has failed, the rest of the listing is not looked at. */
  lemma FailureStops(env: Env, dir: string, es: seq<Entry>, k: nat)
    requires k <= |es|
    requires WalkEntries(env, dir, es[..k]).Failure?
    ensures WalkEntries(env, dir, es) == WalkEntries(env, dir, es[..k])
  {
    assert es == es[..k] + es[k..];
    EntriesAppend(env, dir, es[..k], es[k..]);
  }

  /**
   * The walk of a listing fails exactly when one of its entries fails, and then with
   * the error of the first failing entry.
   */
  lemma {:induction false} FirstFailure(env: Env, dir: string, es: seq<Entry>)
    ensures WalkEntries(env, dir, es).Failure? <==> exists i :: 0 <= i < |es| && Visit(env, dir, es[i]).Failure?
    ensures WalkEntries(env, dir, es).Failure? ==>
              exists i :: 0 <= i < |es| && Visit(env, dir, es[i]) == WalkEntries(env, dir, es)
                && forall j :: 0 <= j < i ==> Visit(env, dir, es[j]).Success?
  {
    if es != [] {
      var init, last := es[..|es| - 1], es[|es| - 1];
      FirstFailure(env, dir, init);
      if WalkEntries(env, dir, init).Failure? {
        var i :| 0 <= i < |init| && Visit(env, dir, init[i]) == WalkEntries(env, dir, init)
                 && forall j :: 0 <= j < i ==> Visit(env, dir, init[j]).Success?;
        assert es[i] == init[i];
        assert forall j :: 0 <= j < i ==> es[j] == init[j];
      } else if Visit(env, dir, last).Failure? {
        assert forall j :: 0 <= j < |init| ==> es[j] == init[j];
      } else {
        forall i | 0 <= i < |es| ensures Visit(env, dir, es[i]).Success? {
          if i < |init| {
            assert es[i] == init[i];
          }
        }
      }
    }
  }

  // ---------------------------------------------------------------------------
  // Which paths are returned

  /**
   * `p` is pushed for the entry `e` of directory `dir`: `e` is a source file at `p`,
   * or an entered directory with such a file somewhere below it.
   */
  ghost predicate Yields(env: Env, dir: string, e: Entry, p: string)
    decreases e
  {
    match e
    case File(name) => IsSourceName(name) && p == env.join(dir, name)
    case Dir(name, es) =>
      !Pruned(name) && exists i :: 0 <= i < |es| && Yields(env, env.join(dir, name), es[i], p)
    case _ => false
  }

  /** A successful walk returns exactly the paths some entry of the listing yields. */
  lemma {:induction false} EntriesYield(env: Env, dir: string, es: seq<Entry>, files: seq<string>)
    requires WalkEntries(env, dir, es) == Success(files)
    ensures forall p :: p in files <==> exists i :: 0 <= i < |es| && Yields(env, dir, es[i], p)
    decreases es, 0
  {
    if es != [] {
      var init, last := es[..|es| - 1], es[|es| - 1];
      var a := WalkEntries(env, dir, init).value;
      var b := Visit(env, dir, last).value;
      EntriesYield(env, dir, init, a);
      VisitYields(env, dir, last, b);
      forall p | p in files ensures exists i :: 0 <= i < |es| && Yields(env, dir, es[i], p) {
        if p in a {
          var i :| 0 <= i < |init| && Yields(env, dir, init[i], p);
          assert es[i] == init[i];
        } else {
          assert Yields(env, dir, es[|es| - 1], p);
        }
      }
      forall p | (exists i :: 0 <= i < |es| && Yields(env, dir, es[i], p)) ensures p in files {
        var i :| 0 <= i < |es| && Yields(env, dir, es[i], p);
        if i < |init| {
          assert init[i] == es[i];
        }
      }
    }
  }

  lemma {:induction false} VisitYields(env: Env, dir: string, e: Entry, files: seq<string>)
    requires Visit(env, dir, e) == Success(files)
    ensures forall p :: p in files <==> Yields(env, dir, e, p)
    decreases e, 1
  {
    if e.Dir? && !Pruned(e.name) {
      EntriesYield(env, env.join(dir, e.name), e.entries, files);
    }
  }

  /**
   * Every returned path is the `join` of a directory reached from the root and the
   * name of a regular source file in it; conversely every such file is returned.
   */
  lemma GetSourceFilesYields(env: Env, dir: string, root: Entry, files: seq<string>)
    requires Walk(env, dir, root) == Success(files)
    ensures forall p :: p in files <==> exists i :: 0 <= i < |root.entries| && Yields(env, dir, root.entries[i], p)
  {
    EntriesYield(env, dir, root.entries, files);
  }

  // ---------------------------------------------------------------------------
  // Entries that contribute nothing, and one that does

  /** A pruned directory contributes nothing and is not even listed, whatever it holds. */
  lemma PrunedContributesNothing(env: Env, dir: string, e: Entry)
    requires IsDirectory(e) && Pruned(e.name)
    ensures Visit(env, dir, e) == Success([])
  {
  }

  /** A directory is never itself returned, even when its name has a source extension. */
  lemma DirectoryNotReturned(env: Env, dir: string, name: string, es: seq<Entry>, p: string)
    requires Yields(env, dir, Dir(name, es), p)
    ensures !Pruned(name)
    ensures exists i :: 0 <= i < |es| && Yields(env, env.join(dir, name), es[i], p)
  {
  }

  /** `.json` is not a source extension, so `package.json` and the like are skipped. */
  lemma JsonSkipped(env: Env, dir: string, name: string)
    requires EndsWith(name, ".json")
    ensures Visit(env, dir, File(name)) == Success([])
  {
    assert name[|name| - 1] == 'n';
  }

  /** The dot rule is for directories only: a dot-named source file is returned. */
  lemma DotFileIncluded(env: Env, dir: string)
    ensures Visit(env, dir, File(".eslintrc.js")) == Success([env.join(dir, ".eslintrc.js")])
  {
    assert EndsWith(".eslintrc.js", SourceExtensions[0]);
  }

  /** Sockets, pipes and devices are skipped without error. */
  lemma SpecialSkipped(env: Env, dir: string, name: string)
    ensures Visit(env, dir, Special(name)) == Success([])
  {
  }
}

=== FILE: parse_repo_url.dfy ===
/**
 * `parseRepoURL(repoUrl)`: the trailing slashes are stripped, the pattern
 * `github\.com\/([\w-]+)\/([\w.-]+)` is matched against the ORIGINAL url (leftmost
 * match, greedy groups), and the clone URL is the stripped url with `.git` appended
 * unless it already ends so. No match throws `Invalid GitHub URL`.
 */
module RepoUrl {
  import opened Wrappers
  import opened Text

  const Host := "github.com/"
  const InvalidUrl := "Invalid GitHub URL"
  const GitSuffix := ".git"

  datatype RepoInfo = RepoInfo(owner: string, repoName: string, cloneUrl: string)

  /** `url.replace(/\/+$/, '')` */
  function TrimTrailingSlashes(s: string): (r: string)
    ensures |r| <= |s| && r == s[..|r|]
    ensures forall k :: |r| <= k < |s| ==> s[k] == '/'
    ensures r == [] || r[|r| - 1] != '/'
  {
    if s == [] || s[|s| - 1] != '/' then s else TrimTrailingSlashes(s[..|s| - 1])
  }

  /** `\w`, without the `u` flag: ASCII letters, digits and `_`. */
  predicate IsWordChar(c: char) {
    ('a' <= c <= 'z') || ('A' <= c <= 'Z') || ('0' <= c <= '9') || c == '_'
  }

  /** `[\w-]` for the owner, `[\w.-]` for the repository name. */
  predicate InClass(c: char, repo: bool) {
    IsWordChar(c) || c == '-' || (repo && c == '.')
  }

  /** Where a greedy run of the class, starting at `i`, stops. */
  function RunEnd(s: string, i: nat, repo: bool): (j: nat)
    requires i <= |s|
    ensures i <= j <= |s|
    ensures forall k :: i <= k < j ==> InClass(s[k], repo)
    ensures j == |s| || !InClass(s[j], repo)
    decreases |s| - i
  {
    if i < |s| && InClass(s[i], repo) then RunEnd(s, i + 1, repo) else i
  }

  /** The two groups of a match. */
  datatype Capture = Capture(owner: string, repo: string)

  /**
   * The pattern tried at position `i`. `/` is in neither class, so backtracking the
   * owner group cannot help: only its greedy end can be followed by the `/`.
   */
  function MatchAt(s: string, i: nat): Option<Capture>
    requires i <= |s|
  {
    if i + |Host| <= |s| && s[i..i + |Host|] == Host then
      var j := RunEnd(s, i + |Host|, false);
      if j > i + |Host| && j < |s| && s[j] == '/' then
        var k := RunEnd(s, j + 1, true);
        if k > j + 1 then Some(Capture(s[i + |Host|..j], s[j + 1..k])) else None
      else None
    else None
  }

  /** The leftmost position at or after `from` where the pattern matches. */
  function FindMatch(s: string, from: nat): (r: Option<nat>)
    requires from <= |s|
    ensures r.None? <==> forall i :: from <= i <= |s| ==> MatchAt(s, i).None?
    ensures r.Some? ==> from <= r.value <= |s| && MatchAt(s, r.value).Some?
                        && forall i :: from <= i < r.value ==> MatchAt(s, i).None?
    decreases |s| - from
  {
    if MatchAt(s, from).Some? then Some(from)
    else if from == |s| then None
    else FindMatch(s, from + 1)
  }

  /** `cleanedUrl.endsWith('.git') ? cleanedUrl : cleanedUrl + '.git'` */
  function CloneUrl(url: string): string {
    var cleaned := TrimTrailingSlashes(url);
    if EndsWith(cleaned, GitSuffix) then cleaned else cleaned + GitSuffix
  }

  function ParseRepoURL(url: string): (r: Result<RepoInfo, string>)
    ensures r.Failure? <==> forall i :: 0 <= i <= |url| ==> MatchAt(url, i).None?
    ensures r.Failure? ==> r.error == InvalidUrl
    ensures r.Success? ==> EndsWith(r.value.cloneUrl, GitSuffix) && r.value.cloneUrl[|r.value.cloneUrl| - 1] != '/'
  {
    match FindMatch(url, 0)
    case None => Failure(InvalidUrl)
    case Some(i) =>
      var c := MatchAt(url, i).value;
      Success(RepoInfo(c.owner, c.repo, CloneUrl(url)))
  }

  // ---------------------------------------------------------------------------
  // The clone URL

  /**
   * The returned `cloneUrl` is the url cut before its run of trailing slashes, with
   * `.git` appended unless that prefix already ends with it.
   */
  lemma {:induction false} CloneUrlShape(url: string)
    requires ParseRepoURL(url).Success?
    ensures var c := ParseRepoURL(url).value.cloneUrl;
      exists n :: 0 <= n <= |url| && (forall k :: n <= k < |url| ==> url[k] == '/') && (n == 0 || url[n - 1] != '/')
        && c == url[..n] + (if EndsWith(url[..n], GitSuffix) then "" else GitSuffix)
  {
    CloneUrlIs(url);
    CloneUrlForm(url, ParseRepoURL(url).value.cloneUrl);
  }

  lemma {:induction false} CloneUrlForm(url: string, c: string)
    requires c == CloneUrl(url)
    ensures exists m ::
              && 0 <= m <= |url| && (forall k :: m <= k < |url| ==> url[k] == '/') && (m == 0 || url[m - 1] != '/')
              && c == url[..m] + (if EndsWith(url[..m], GitSuffix) then "" else GitSuffix)
  {
    var cleaned := TrimTrailingSlashes(url);
    var n := |cleaned|;
    CleanedPrefix(url);
    assert (forall k :: n <= k < |url| ==> url[k] == '/') && (n == 0 || url[n - 1] != '/');
    ShapeWitness(url, n, c);
  }

  lemma ShapeWitness(url: string, n: nat, c: string)
    requires n <= |url| && (forall k :: n <= k < |url| ==> url[k] == '/') && (n == 0 || url[n - 1] != '/')
    requires c == url[..n] + (if EndsWith(url[..n], GitSuffix) then "" else GitSuffix)
    ensures exists m ::
              && 0 <= m <= |url| && (forall k :: m <= k < |url| ==> url[k] == '/') && (m == 0 || url[m - 1] != '/')
              && c == url[..m] + (if EndsWith(url[..m], GitSuffix) then "" else GitSuffix)
  {
  }

  lemma {:induction false} CloneUrlIs(url: string)
    requires ParseRepoURL(url).Success?
    ensures ParseRepoURL(url).value.cloneUrl == CloneUrl(url)
  {
    var i := FindMatch(url, 0).value;
  }

  lemma {:induction false} CleanedPrefix(url: string)
    ensures var n := |TrimTrailingSlashes(url)|;
      && url[..n] == TrimTrailingSlashes(url)
      && CloneUrl(url) == url[..n] + (if EndsWith(url[..n], GitSuffix) then "" else GitSuffix)
  {
    var cleaned := TrimTrailingSlashes(url);
    assert cleaned + "" == cleaned;
  }

  /** A url that does not end in `/` is its own cleaned form. */
  lemma {:induction false} TrimNoSlash(s: string)
    requires s == [] || s[|s| - 1] != '/'
    ensures TrimTrailingSlashes(s) == s
  {
  }

  /** Normalising is idempotent: a clone URL is its own clone URL. */
  lemma {:induction false} CloneUrlIdempotent(url: string)
    ensures CloneUrl(CloneUrl(url)) == CloneUrl(url)
  {
    var c := CloneUrl(url);
    assert c[|c| - 1] == 't';
    TrimNoSlash(c);
    assert EndsWith(c, GitSuffix);
  }

  // ---------------------------------------------------------------------------
  // The captures

  /** The groups of a match at `i` are captured at `i`. */
  lemma {:induction false} MatchCaptured(url: string, i: nat)
    requires i <= |url| && MatchAt(url, i).Some?
    ensures CapturedAt(url, i, MatchAt(url, i).value.owner, MatchAt(url, i).value.repo)
  {
  }

  /**
   * On success, `owner` and `repoName` are the two greedy runs after the leftmost
   * `github.com/` that is followed by an owner, a `/` and a repository name; both are
   * taken from the url as given, trailing slashes and `.git` included.
   */
  lemma {:induction false} Captures(url: string)
    requires ParseRepoURL(url).Success?
    ensures var info := ParseRepoURL(url).value;
      exists i: nat :: i <= |url| && CapturedAt(url, i, info.owner, info.repoName)
        && (forall p :: 0 <= p < i ==> MatchAt(url, p).None?)
  {
    var i := FindMatch(url, 0).value;
    var c := MatchAt(url, i).value;
    MatchCaptured(url, i);
    assert ParseRepoURL(url).value.owner == c.owner && ParseRepoURL(url).value.repoName == c.repo;
  }

  /**
   * `github.com/<owner>/<repo>` stands at `i`, and the repository run cannot be
   * extended (the owner run cannot either: it is followed by `/`).
   */
  predicate CapturedAt(url: string, i: nat, owner: string, repo: string) {
    var j := i + |Host| + |owner|;
    var end := j + 1 + |repo|;
    |owner| > 0 && |repo| > 0 && end <= |url|
    && url[i..i + |Host|] == Host
    && owner == url[i + |Host|..j]
    && url[j] == '/'
    && repo == url[j + 1..end]
    && (forall k :: 0 <= k < |owner| ==> InClass(owner[k], false))
    && (forall k :: 0 <= k < |repo| ==> InClass(repo[k], true))
    && (end == |url| || !InClass(url[end], true))
  }

  // ---------------------------------------------------------------------------
  // Feeding the clone URL back in

  /** A greedy run that stops inside a common prefix stops at the same place in both strings. */
  lemma {:induction false} RunEndLocal(s: string, t: string, i: nat, n: nat, repo: bool)
    requires i <= n <= |s| && n <= |t| && s[..n] == t[..n]
    requires RunEnd(s, i, repo) < n
    ensures RunEnd(t, i, repo) == RunEnd(s, i, repo)
    decreases n - i
  {
    assert s[i] == s[..n][i] == t[..n][i] == t[i];
    if InClass(s[i], repo) {
      RunEndLocal(s, t, i + 1, n, repo);
    }
  }

  lemma {:induction false} SameSlice(s: string, t: string, n: nat, a: nat, b: nat)
    requires a <= b <= n <= |s| && n <= |t| && s[..n] == t[..n]
    ensures s[a..b] == t[a..b]
  {
    forall i | 0 <= i < b - a ensures s[a..b][i] == t[a..b][i] {
      assert s[a..b][i] == s[a + i] == s[..n][a + i];
      assert t[a..b][i] == t[a + i] == t[..n][a + i];
    }
  }

  /**
   * Whether the pattern matches at `p`, and the owner it captures there, depend only on
   * the characters up to the one after the owner's terminating `/`.
   */
  lemma {:induction false} MatchLocal(s: string, t: string, p: nat, n: nat)
    requires p + |Host| <= n <= |s| && n <= |t| && s[..n] == t[..n]
    requires RunEnd(s, p + |Host|, false) + 2 <= n
    ensures MatchAt(s, p).Some? <==> MatchAt(t, p).Some?
    ensures MatchAt(s, p).Some? ==> MatchAt(s, p).value.owner == MatchAt(t, p).value.owner
  {
    var j := RunEnd(s, p + |Host|, false);
    RunEndLocal(s, t, p + |Host|, n, false);
    SameSlice(s, t, n, p, p + |Host|);
    SameSlice(s, t, n, p + |Host|, j);
    SameSlice(s, t, n, j, j + 2);
    assert s[j] == s[j..j + 2][0] && t[j] == t[j..j + 2][0];
    assert s[j + 1] == s[j..j + 2][1] && t[j + 1] == t[j..j + 2][1];
    if j < |s| && s[j] == '/' {
      assert RunEnd(s, j + 1, true) > j + 1 <==> InClass(s[j + 1], true);
      assert RunEnd(t, j + 1, true) > j + 1 <==> InClass(t[j + 1], true);
    }
  }

  /**
   * Before a match at `i`, the owner run from any earlier candidate position stops at
   * the latest at the `/` that ends the `github.com/` at `i`.
   */
  lemma {:induction false} EarlierRunsStop(s: string, p: nat, i: nat)
    requires p < i && i + |Host| <= |s| && s[i..i + |Host|] == Host
    ensures RunEnd(s, p + |Host|, false) <= i + |Host| - 1
  {
    assert s[i + |Host| - 1] == Host[|Host| - 1] == '/';
  }

  /** The clone URL agrees with the input up to the trailing slashes. */
  lemma {:induction false} CloneAgreesBeforeSlashes(url: string)
    ensures var n := |TrimTrailingSlashes(url)|;
      n <= |url| && n <= |CloneUrl(url)| && CloneUrl(url)[..n] == url[..n]
  {
    var cleaned := TrimTrailingSlashes(url);
    assert CloneUrl(url)[..|cleaned|] == cleaned;
  }

  /** A match ends on a repository character, so before the trailing slashes. */
  lemma {:induction false} MatchBeforeSlashes(url: string, i: nat)
    requires i <= |url| && MatchAt(url, i).Some?
    ensures var j := RunEnd(url, i + |Host|, false);
      j + 2 <= |TrimTrailingSlashes(url)|
  {
    var j := RunEnd(url, i + |Host|, false);
    var k := RunEnd(url, j + 1, true);
    assert InClass(url[k - 1], true);
  }

  /** A position before a `github.com/` that fails to match in `s` fails in `t` too. */
  lemma {:induction false} EarlierStillFail(s: string, t: string, p: nat, i: nat, n: nat)
    requires p < i && i + |Host| + 1 <= n <= |s| && n <= |t| && s[..n] == t[..n]
    requires s[i..i + |Host|] == Host && MatchAt(s, p).None?
    ensures MatchAt(t, p).None?
  {
    EarlierRunsStop(s, p, i);
    MatchLocal(s, t, p, n);
  }

  /** A match with none before it is the leftmost one. */
  lemma {:induction false} LeftmostMatch(s: string, i: nat)
    requires i <= |s| && MatchAt(s, i).Some?
    requires forall p :: 0 <= p < i ==> MatchAt(s, p).None?
    ensures FindMatch(s, 0) == Some(i)
  {
  }

  /**
   * Two strings that agree up to just past the owner of the leftmost match of the
   * first have their leftmost match at the same place, with the same owner.
   */
  lemma {:induction false} SameLeftmost(s: string, t: string, n: nat)
    requires FindMatch(s, 0).Some?
    requires n <= |s| && n <= |t| && s[..n] == t[..n]
    requires RunEnd(s, FindMatch(s, 0).value + |Host|, false) + 2 <= n
    ensures FindMatch(t, 0) == FindMatch(s, 0)
    ensures MatchAt(t, FindMatch(s, 0).value).value.owner == MatchAt(s, FindMatch(s, 0).value).value.owner
  {
    var i := FindMatch(s, 0).value;
    MatchCaptured(s, i);
    forall p: nat | p < i ensures MatchAt(t, p).None? {
      EarlierStillFail(s, t, p, i, n);
    }
    MatchLocal(s, t, i, n);
    LeftmostMatch(t, i);
  }

  /** In the clone URL the leftmost match is at the same place, with the same owner. */
  lemma {:induction false} CloneKeepsMatch(url: string)
    requires FindMatch(url, 0).Some?
    ensures FindMatch(CloneUrl(url), 0) == FindMatch(url, 0)
    ensures var i := FindMatch(url, 0).value;
      MatchAt(CloneUrl(url), i).value.owner == MatchAt(url, i).value.owner
  {
    CloneAgreesBeforeSlashes(url);
    MatchBeforeSlashes(url, FindMatch(url, 0).value);
    SameLeftmost(url, CloneUrl(url), |TrimTrailingSlashes(url)|);
  }

  /**
   * Feeding the returned `cloneUrl` back in succeeds, with the same `cloneUrl` and the
   * same `owner`. (The repository name may differ: `github.com/o/r/` gives `r`, its
   * clone URL `github.com/o/r.git` gives `r.git`.)
   */
  lemma RoundTrip(url: string)
    requires ParseRepoURL(url).Success?
    ensures var info := ParseRepoURL(url).value;
      ParseRepoURL(info.cloneUrl).Success?
      && ParseRepoURL(info.cloneUrl).value.cloneUrl == info.cloneUrl
      && ParseRepoURL(info.cloneUrl).value.owner == info.owner
  {
    CloneKeepsMatch(url);
    CloneUrlIdempotent(url);
  }

  // ---------------------------------------------------------------------------
  // Two worked inputs

  /** Before `github.com/` in an `https://` url nothing can match: no position holds a `g`. */
  lemma {:induction false} NoMatchBeforeHost(u: string, i: nat)
    requires i <= |u| && forall p :: 0 <= p < i ==> u[p] != 'g'
    ensures forall p :: 0 <= p < i ==> MatchAt(u, p).None?
  {
    forall p | 0 <= p < i ensures MatchAt(u, p).None? {
      if p + |Host| <= |u| {
        assert u[p..p + |Host|][0] == u[p] != Host[0];
      }
    }
  }

  const GitUrl := "https://github.com/acme/tool.git"

  lemma GitUrlHost()
    ensures GitUrl[8..19] == Host
  {
    assert GitUrl == "https://" + Host + "acme/tool.git";
  }

  lemma GitUrlRuns()
    ensures RunEnd(GitUrl, 19, false) == 23 && RunEnd(GitUrl, 24, true) == 32
  {
    var u := GitUrl;
    assert RunEnd(u, 23, false) == 23;
    assert RunEnd(u, 21, false) == 23;
    assert RunEnd(u, 32, true) == 32;
    assert RunEnd(u, 30, true) == 32;
    assert RunEnd(u, 28, true) == 32;
    assert RunEnd(u, 26, true) == 32;
  }

  lemma GitUrlMatch()
    ensures MatchAt(GitUrl, 8) == Some(Capture("acme", "tool.git"))
  {
    GitUrlHost();
    GitUrlRuns();
    assert GitUrl[19..23] == "acme" && GitUrl[24..32] == "tool.git";
  }

  /**
   * The match is taken on the url as given, so a `.git` suffix stays in `repoName`;
   * the clone URL is the url unchanged.
   */
  lemma {:induction false} GitSuffixKept()
    ensures ParseRepoURL(GitUrl) == Success(RepoInfo("acme", "tool.git", GitUrl))
  {
    NoMatchBeforeHost(GitUrl, 8);
    GitUrlMatch();
    LeftmostMatch(GitUrl, 8);
    TrimNoSlash(GitUrl);
    assert EndsWith(GitUrl, GitSuffix);
  }

  const SlashUrl := "https://github.com/acme/tool/"

  lemma SlashUrlHost()
    ensures SlashUrl[8..19] == Host
  {
    assert SlashUrl == "https://" + Host + "acme/tool/";
  }

  lemma SlashUrlRuns()
    ensures RunEnd(SlashUrl, 19, false) == 23 && RunEnd(SlashUrl, 24, true) == 28
  {
    var u := SlashUrl;
    assert RunEnd(u, 23, false) == 23;
    assert RunEnd(u, 21, false) == 23;
    assert RunEnd(u, 28, true) == 28;
    assert RunEnd(u, 26, true) == 28;
  }

  lemma SlashUrlMatch()
    ensures MatchAt(SlashUrl, 8) == Some(Capture("acme", "tool"))
  {
    SlashUrlHost();
    SlashUrlRuns();
    assert SlashUrl[19..23] == "acme" && SlashUrl[24..28] == "tool";
  }

  lemma SlashUrlClone()
    ensures CloneUrl(SlashUrl) == GitUrl
  {
    var cleaned := SlashUrl[..|SlashUrl| - 1];
    TrimNoSlash(cleaned);
    assert TrimTrailingSlashes(SlashUrl) == cleaned;
    assert cleaned[|cleaned| - 1] == 'l';
    assert cleaned + GitSuffix == GitUrl;
  }

  /**
   * The round trip keeps the owner and the clone URL but not always the repository
   * name: a url with a trailing slash gives `tool`, and its clone URL, `GitUrl`,
   * gives `tool.git` (`GitSuffixKept`).
   */
  lemma {:induction false} RepoNameNotKept()
    ensures ParseRepoURL(SlashUrl) == Success(RepoInfo("acme", "tool", GitUrl))
  {
    NoMatchBeforeHost(SlashUrl, 8);
    SlashUrlMatch();
    LeftmostMatch(SlashUrl, 8);
    SlashUrlClone();
  }
}

=== FILE: pipeline.dfy ===
/**
 * The glue around the four analysis steps: `parseFiles` reads and parses every listed
 * file, skipping the ones that cannot be read or parsed and the empty ones, and
 * `generateGraphDataFromClone` runs discovery, parsing, analysis and aggregation in
 * sequence. Reading a file and running the parser are injected: `read` is `None` when
 * `readFileSync` throws, `parse` is `None` when the parser throws.
 */
module Pipeline {
  import opened Wrappers
  import opened Dict
  import opened SyntaxTree
  import opened Platform
  import opened SourceFiles
  import opened Analyzer
  import opened GraphBuilder

  type Reader = string -> Option<string>
  type Parser = string -> Option<SyntaxNode>

  /** The tree stored for one file, if any: an empty source counts as unreadable. */
  function ParseOne(read: Reader, parse: Parser, file: string): Option<SyntaxNode> {
    match read(file)
    case None => None
    case Some(source) => if source == "" then None else parse(source)
  }

  /** The `parsedTrees` object `parseFiles(fileList)` builds. */
  function ParsedTrees(read: Reader, parse: Parser, files: seq<string>): (d: seq<(string, SyntaxNode)>)
    ensures DistinctKeys(d)
  {
    if files == [] then []
    else
      var d := ParsedTrees(read, parse, files[..|files| - 1]);
      var file := files[|files| - 1];
      match ParseOne(read, parse, file)
      case None => d
      case Some(tree) => Put(d, file, tree)
  }

  method ParseFiles(read: Reader, parse: Parser, fileList: seq<string>)
    returns (parsedTrees: seq<(string, SyntaxNode)>)
    ensures parsedTrees == ParsedTrees(read, parse, fileList)
  {
    parsedTrees := [];
    for i := 0 to |fileList|
      invariant parsedTrees == ParsedTrees(read, parse, fileList[..i])
    {
      assert fileList[..i + 1][..i] == fileList[..i];
      var file := fileList[i];
      var sourceCode := read(file);
      if sourceCode.None? || sourceCode.value == "" {
        continue;
      }
      var tree := parse(sourceCode.value);
      if tree.None? {
        continue;
      }
      parsedTrees := Put(parsedTrees, file, tree.value);
    }
    assert fileList[..|fileList|] == fileList;
  }

  /**
   * The keys of `parsedTrees` are exactly the listed files that could be read and
   * parsed, each holding its own tree; a file listed twice is stored once.
   */
  lemma {:induction false} ParsedTreesKeys(read: Reader, parse: Parser, files: seq<string>)
    ensures var d := ParsedTrees(read, parse, files);
      forall k :: k in Keys(d) <==> k in files && ParseOne(read, parse, k).Some?
    ensures var d := ParsedTrees(read, parse, files);
      forall i :: 0 <= i < |d| ==> ParseOne(read, parse, d[i].0) == Some(d[i].1)
    ensures |ParsedTrees(read, parse, files)| <= |files|
  {
    if files != [] {
      var init, file := files[..|files| - 1], files[|files| - 1];
      ParsedTreesKeys(read, parse, init);
      assert files == init + [file];
      var d := ParsedTrees(read, parse, init);
      if ParseOne(read, parse, file).Some? {
        PutKeys(d, file, ParseOne(read, parse, file).value);
      }
    }
  }

  datatype PipelineError = WalkFailed(fsError: FsError) | AnalyzeFailed(analysisError: AnalysisError)

  /**
   * Discovery, parsing, analysis and aggregation in sequence: the graph of the analyses
   * of the trees parsed from the discovered files. Every edge starts at a
   * discovered source file, and every discovered file that could be read and parsed is
   * a node of the graph.
   */
  method GenerateGraphDataFromClone(env: Env, read: Reader, parse: Parser, cloneDir: string, root: Entry)
    returns (r: Result<UiGraph, PipelineError>)
    ensures Walk(env, cloneDir, root).Failure? ==> r == Failure(WalkFailed(Walk(env, cloneDir, root).error))
    ensures Walk(env, cloneDir, root).Success? && r.Failure? ==> r.error.AnalyzeFailed?
    ensures r.Success? ==> Walk(env, cloneDir, root).Success?
    ensures Walk(env, cloneDir, root).Success? ==>
              r == match AllAnalyses(FileAnalysis(env), ParsedTrees(read, parse, Walk(env, cloneDir, root).value))
                   case Failure(e) => Failure(AnalyzeFailed(e))
                   case Success(rs) => Success(GraphOf(rs))
    ensures r.Success? ==> forall e :: e in r.value.edges ==> e.source in Walk(env, cloneDir, root).value
    ensures r.Success? ==>
              forall f :: (f in Walk(env, cloneDir, root).value && ParseOne(read, parse, f).Some?) ==> f in NodeIds(r.value)
  {
    var fileList := GetSourceFiles(env, cloneDir, root);
    if fileList.Failure? {
      return Failure(WalkFailed(fileList.error));
    }
    var parsedTrees := ParseFiles(read, parse, fileList.value);
    var allResults := AnalyzeFiles(env, parsedTrees);
    if allResults.Failure? {
      return Failure(AnalyzeFailed(allResults.error));
    }
    var graph := GenerateGraphData(allResults.value);
    AllAnalysesValues(FileAnalysis(env), parsedTrees);
    ParsedTreesKeys(read, parse, fileList.value);
    AnalysedFiles(allResults.value, parsedTrees);
    EdgeEndpointsAreNodes(allResults.value);
    NodesAreFilesAndTargets(allResults.value);
    return Success(graph);
  }

  /** The files of the analysis results are the keys they were computed from. */
  lemma AnalysedFiles(results: seq<(string, AnalysisResult)>, trees: seq<(string, SyntaxNode)>)
    requires Keys(results) == Keys(trees)
    ensures forall f :: f in FileSet(results) <==> f in Keys(trees)
  {
    forall f | f in Keys(trees) ensures f in FileSet(results) {
      var i :| 0 <= i < |trees| && Keys(trees)[i] == f;
      assert results[i].0 == Keys(results)[i];
    }
  }
}

=== FILE: platform.dfy ===
/**
 * The host facilities the pipeline consults: `fs.existsSync` and the `path` helpers.
 * They are injected as total functions, so every result holds for any file system
 * and any path semantics.
 */
module Platform {
  datatype Env = Env(
    pathExists: string -> bool,           // fs.existsSync
    resolve: (string, string) -> string,  // path.resolve(base, relative)
    dirname: string -> string,            // path.dirname
    join: (string, string) -> string,     // path.join
    isAbsolute: string -> bool)           // path.isAbsolute
}

=== FILE: resolve_import_path.dfy ===
/**
 * resolveImportPath: map a relative specifier, seen in `file`, to the first existing
 * path among a fixed list of candidates, or to null.
 */
module Resolver {
  import opened Wrappers
  import opened Text
  import opened Platform

  /** Probe order of the extensions, for direct files and for `index` files alike. */
  const Extensions: seq<string> := [".js", ".ts", ".jsx", ".tsx", ".json"]

  /** `path.resolve(path.dirname(file), importPath)` */
  function Base(env: Env, file: string, importPath: string): string {
    env.resolve(env.dirname(file), importPath)
  }

  function FileCandidate(full: string, i: nat): string
    requires i < |Extensions|
  {
    full + Extensions[i]
  }

  function IndexCandidate(env: Env, full: string, i: nat): string
    requires i < |Extensions|
  {
    env.join(full, "index" + Extensions[i])
  }

  /** Every path probed, in probe order: the five direct files, the five index files, the base itself. */
  function Candidates(env: Env, full: string): (cs: seq<string>)
    ensures |cs| == 2 * |Extensions| + 1
    ensures forall i :: 0 <= i < |Extensions| ==> cs[i] == FileCandidate(full, i)
    ensures forall i :: 0 <= i < |Extensions| ==> cs[|Extensions| + i] == IndexCandidate(env, full, i)
    ensures cs[2 * |Extensions|] == full
  {
    seq(|Extensions|, i requires 0 <= i < |Extensions| => FileCandidate(full, i))
    + seq(|Extensions|, i requires 0 <= i < |Extensions| => IndexCandidate(env, full, i))
    + [full]
  }

  /** The first candidate for which `present` holds, or None when none does. */
  function FirstExisting(present: string -> bool, cs: seq<string>): (r: Option<string>)
    ensures r.None? <==> forall j :: 0 <= j < |cs| ==> !present(cs[j])
    ensures r.Some? ==> exists k :: 0 <= k < |cs| && cs[k] == r.value && present(cs[k])
                                    && forall j :: 0 <= j < k ==> !present(cs[j])
  {
    if cs == [] then None
    else if present(cs[0]) then Some(cs[0])
    else
      var r := FirstExisting(present, cs[1..]);
      assert forall j :: 1 <= j < |cs| ==> cs[j] == cs[1..][j - 1];
      r
  }

  /** What resolveImportPath returns: null for a specifier not starting with `.`, else the first existing candidate. */
  function Resolution(env: Env, file: string, importPath: string): Option<string> {
    if !StartsWith(importPath, ".") then None
    else FirstExisting(env.pathExists, Candidates(env, Base(env, file, importPath)))
  }

  /** The resolver as the source writes it: two probe loops that return early, then the bare path. */
  method ResolveImportPath(env: Env, file: string, importPath: string) returns (r: Option<string>)
    ensures r == Resolution(env, file, importPath)
  {
    if !StartsWith(importPath, ".") {
      return None;
    }
    var full := Base(env, file, importPath);
    ghost var cs := Candidates(env, full);
    for i := 0 to |Extensions|
      invariant forall j :: 0 <= j < i ==> !env.pathExists(cs[j])
    {
      if env.pathExists(full + Extensions[i]) {
        FirstExistingAt(env.pathExists, cs, i);
        return Some(full + Extensions[i]);
      }
    }
    for i := 0 to |Extensions|
      invariant forall j :: 0 <= j < |Extensions| + i ==> !env.pathExists(cs[j])
    {
      var indexPath := env.join(full, "index" + Extensions[i]);
      if env.pathExists(indexPath) {
        FirstExistingAt(env.pathExists, cs, |Extensions| + i);
        return Some(indexPath);
      }
    }
    if env.pathExists(full) {
      FirstExistingAt(env.pathExists, cs, 2 * |Extensions|);
      return Some(full);
    }
    return None;
  }

  /** The first existing candidate is the answer, whatever exists after it. */
  lemma FirstExistingAt(present: string -> bool, cs: seq<string>, k: nat)
    requires k < |cs| && present(cs[k])
    requires forall j :: 0 <= j < k ==> !present(cs[j])
    ensures FirstExisting(present, cs) == Some(cs[k])
  {
    var r := FirstExisting(present, cs);
    var k' :| 0 <= k' < |cs| && cs[k'] == r.value && present(cs[k'])
              && forall j :: 0 <= j < k' ==> !present(cs[j]);
    assert k' == k;
  }

  /** Only a specifier starting with `.` is ever probed; any other, `/`-rooted ones included, gives null. */
  lemma NonRelativeIsNull(env: Env, file: string, importPath: string)
    requires !StartsWith(importPath, ".")
    ensures Resolution(env, file, importPath) == None
  {
  }

  /** A non-null resolution is a path for which the existence check held. */
  lemma ResolvedPathExists(env: Env, file: string, importPath: string)
    requires Resolution(env, file, importPath).Some?
    ensures env.pathExists(Resolution(env, file, importPath).value)
  {
  }

  /**
   * A direct file `full + ext` wins over every index file, even when index files exist:
   * the first existing extension, in probe order, decides.
   */
  lemma {:induction false} FileMatchWins(env: Env, file: string, importPath: string, i: nat)
    requires StartsWith(importPath, ".")
    requires i < |Extensions|
    requires env.pathExists(FileCandidate(Base(env, file, importPath), i))
    requires forall j :: 0 <= j < i ==> !env.pathExists(FileCandidate(Base(env, file, importPath), j))
    ensures Resolution(env, file, importPath) == Some(FileCandidate(Base(env, file, importPath), i))
  {
    FirstExistingAt(env.pathExists, Candidates(env, Base(env, file, importPath)), i);
  }

  /** With no direct file, the first existing `index` file, in the same extension order, is the answer. */
  lemma {:induction false} IndexMatch(env: Env, file: string, importPath: string, i: nat)
    requires StartsWith(importPath, ".")
    requires i < |Extensions|
    requires forall j :: 0 <= j < |Extensions| ==> !env.pathExists(FileCandidate(Base(env, file, importPath), j))
    requires env.pathExists(IndexCandidate(env, Base(env, file, importPath), i))
    requires forall j :: 0 <= j < i ==> !env.pathExists(IndexCandidate(env, Base(env, file, importPath), j))
    ensures Resolution(env, file, importPath) == Some(IndexCandidate(env, Base(env, file, importPath), i))
  {
    var cs := Candidates(env, Base(env, file, importPath));
    forall j | 0 <= j < |Extensions| + i ensures !env.pathExists(cs[j]) {
      if j >= |Extensions| {
        assert cs[j] == IndexCandidate(env, Base(env, file, importPath), j - |Extensions|);
      }
    }
    FirstExistingAt(env.pathExists, cs, |Extensions| + i);
  }

  /**
   * With no direct file and no index file, the base path itself is returned when it
   * exists, and null otherwise.
   */
  lemma {:induction false} BareFallback(env: Env, file: string, importPath: string)
    requires StartsWith(importPath, ".")
    requires forall j :: 0 <= j < |Extensions| ==> !env.pathExists(FileCandidate(Base(env, file, importPath), j))
    requires forall j :: 0 <= j < |Extensions| ==> !env.pathExists(IndexCandidate(env, Base(env, file, importPath), j))
    ensures Resolution(env, file, importPath)
            == if env.pathExists(Base(env, file, importPath)) then Some(Base(env, file, importPath)) else None
  {
    var full := Base(env, file, importPath);
    var cs := Candidates(env, full);
    forall j | 0 <= j < 2 * |Extensions| ensures !env.pathExists(cs[j]) {
      if j >= |Extensions| {
        assert cs[j] == IndexCandidate(env, full, j - |Extensions|);
      }
    }
    if env.pathExists(full) {
      FirstExistingAt(env.pathExists, cs, 2 * |Extensions|);
    }
  }
}

=== FILE: syntax_tree.dfy ===
/**
 * The parts of a tree-sitter syntax tree the analyser reads. A node's named children
 * are the children whose `named` flag is set, in order; `node.child(i)` and
 * `node.namedChild(i)` yield null past the end, modelled as None.
 */
module SyntaxTree {
  import opened Wrappers

  datatype Point = Point(row: nat, column: nat)

  datatype SyntaxNode = SyntaxNode(
    kind: string,     // tree-sitter `type`
    text: string,     // source text spanned by the node
    start: Point,     // `startPosition`
    named: bool,
    children: seq<SyntaxNode>)

  function NamedOnly(ns: seq<SyntaxNode>): (r: seq<SyntaxNode>)
    ensures |r| <= |ns|
    ensures forall m :: m in r <==> m in ns && m.named
  {
    if ns == [] then []
    else
      var rest := NamedOnly(ns[..|ns| - 1]);
      if ns[|ns| - 1].named then rest + [ns[|ns| - 1]] else rest
  }

  /** Named children keep their order: filtering two runs of children is the two filters in sequence. */
  lemma {:induction false} NamedOnlyAppend(a: seq<SyntaxNode>, b: seq<SyntaxNode>)
    ensures NamedOnly(a + b) == NamedOnly(a) + NamedOnly(b)
    decreases |b|
  {
    if b == [] {
      assert a + b == a;
    } else {
      assert (a + b)[..|a + b| - 1] == a + b[..|b| - 1];
      assert (a + b)[|a + b| - 1] == b[|b| - 1];
      NamedOnlyAppend(a, b[..|b| - 1]);
    }
  }

  /** One child: kept iff it is named. */
  lemma NamedOnlySingle(m: SyntaxNode)
    ensures NamedOnly([m]) == if m.named then [m] else []
  {
    assert [m][..0] == [];
  }

  function NamedChildren(n: SyntaxNode): seq<SyntaxNode> {
    NamedOnly(n.children)
  }

  /** `node.child(i)` */
  function Child(n: SyntaxNode, i: nat): Option<SyntaxNode> {
    if i < |n.children| then Some(n.children[i]) else None
  }

  /**
   * `node.descendantsOfType(kinds)`: a pre-order walk of the subtree (the node
   * itself first, then each child's subtree in order) keeping the nodes whose kind
   * is in `kinds`.
   */
  function DescendantsOfType(n: SyntaxNode, kinds: set<string>): (r: seq<SyntaxNode>)
    ensures forall m :: m in r ==> m.kind in kinds
    ensures n.kind in kinds ==> |r| > 0 && r[0] == n
    decreases n, 1
  {
    (if n.kind in kinds then [n] else []) + DescendantsOfAll(n.children, kinds)
  }

  function DescendantsOfAll(ns: seq<SyntaxNode>, kinds: set<string>): (r: seq<SyntaxNode>)
    ensures forall m :: m in r ==> m.kind in kinds
    decreases ns, 0
  {
    if ns == [] then [] else DescendantsOfType(ns[0], kinds) + DescendantsOfAll(ns[1..], kinds)
  }

  /** `m` is `n` or lies somewhere below it. */
  ghost predicate InSubtree(m: SyntaxNode, n: SyntaxNode)
    decreases n, 1
  {
    m == n || InForest(m, n.children)
  }

  /** `m` lies in the subtree of one of `ns`. */
  ghost predicate InForest(m: SyntaxNode, ns: seq<SyntaxNode>)
    decreases ns, 0
  {
    exists i :: 0 <= i < |ns| && InSubtree(m, ns[i])
  }

  /**
   * `descendantsOfType` is a complete filter: it returns exactly the nodes of the
   * subtree whose kind is requested.
   */
  lemma {:induction false} DescendantsExactly(n: SyntaxNode, kinds: set<string>)
    ensures forall m :: m in DescendantsOfType(n, kinds) <==> InSubtree(m, n) && m.kind in kinds
    decreases n, 1
  {
    DescendantsOfAllExactly(n.children, kinds);
  }

  lemma {:induction false} DescendantsOfAllExactly(ns: seq<SyntaxNode>, kinds: set<string>)
    ensures forall m :: m in DescendantsOfAll(ns, kinds) <==> InForest(m, ns) && m.kind in kinds
    decreases ns, 0
  {
    if ns != [] {
      DescendantsExactly(ns[0], kinds);
      DescendantsOfAllExactly(ns[1..], kinds);
      forall m ensures InForest(m, ns) <==> InSubtree(m, ns[0]) || InForest(m, ns[1..]) {
        if InForest(m, ns) {
          var i :| 0 <= i < |ns| && InSubtree(m, ns[i]);
          if i > 0 {
            assert ns[1..][i - 1] == ns[i];
          }
        }
        if InForest(m, ns[1..]) {
          var i :| 0 <= i < |ns[1..]| && InSubtree(m, ns[1..][i]);
          assert ns[i + 1] == ns[1..][i];
        }
      }
    }
  }

  /** Siblings keep their order: the walk over two runs of siblings is the two walks in sequence. */
  lemma {:induction false} DescendantsOfAllAppend(a: seq<SyntaxNode>, b: seq<SyntaxNode>, kinds: set<string>)
    ensures DescendantsOfAll(a + b, kinds) == DescendantsOfAll(a, kinds) + DescendantsOfAll(b, kinds)
  {
    if a == [] {
      assert a + b == b;
    } else {
      assert (a + b)[0] == a[0];
      assert (a + b)[1..] == a[1..] + b;
      DescendantsOfAllAppend(a[1..], b, kinds);
    }
  }

  /** A subtree with no node of the requested kinds gives an empty walk. */
  lemma {:induction false} NoneOfKinds(n: SyntaxNode, kinds: set<string>)
    requires forall m :: InSubtree(m, n) ==> m.kind !in kinds
    ensures DescendantsOfType(n, kinds) == []
    decreases n, 1
  {
    assert InSubtree(n, n);
    NoneOfKindsAll(n.children, kinds);
  }

  lemma {:induction false} NoneOfKindsAll(ns: seq<SyntaxNode>, kinds: set<string>)
    requires forall m :: InForest(m, ns) ==> m.kind !in kinds
    ensures DescendantsOfAll(ns, kinds) == []
    decreases ns, 0
  {
    if ns != [] {
      forall m | InSubtree(m, ns[0]) ensures m.kind !in kinds {
        assert InForest(m, ns);
      }
      NoneOfKinds(ns[0], kinds);
      forall m | InForest(m, ns[1..]) ensures m.kind !in kinds {
        var i :| 0 <= i < |ns[1..]| && InSubtree(m, ns[1..][i]);
        assert ns[i + 1] == ns[1..][i];
        assert InForest(m, ns);
      }
      NoneOfKindsAll(ns[1..], kinds);
    }
  }
}

=== FILE: text.dfy ===
/** String helpers shared by the analyser, the resolver and the URL parser. */
module Text {
  predicate StartsWith(s: string, prefix: string) {
    |prefix| <= |s| && s[..|prefix|] == prefix
  }

  predicate EndsWith(s: string, suffix: string) {
    |suffix| <= |s| && s[|s| - |suffix|..] == suffix
  }

  predicate IsQuote(c: char) {
    c == '\'' || c == '"'
  }

  predicate QuoteFree(s: string) {
    forall i :: 0 <= i < |s| ==> !IsQuote(s[i])
  }

  /** `s.replace(/['"]/g, '')`: every single and double quote is removed, wherever it stands. */
  function StripQuotes(s: string): (r: string)
    ensures QuoteFree(r)
    ensures |r| <= |s|
  {
    if s == [] then []
    else
      var rest := StripQuotes(s[..|s| - 1]);
      if IsQuote(s[|s| - 1]) then rest else rest + [s[|s| - 1]]
  }

  /** Quote removal works character by character: it distributes over concatenation. */
  lemma {:induction false} StripQuotesAppend(a: string, b: string)
    ensures StripQuotes(a + b) == StripQuotes(a) + StripQuotes(b)
    decreases |b|
  {
    if b == [] {
      assert a + b == a;
    } else {
      assert (a + b)[..|a + b| - 1] == a + b[..|b| - 1];
      StripQuotesAppend(a, b[..|b| - 1]);
    }
  }

  /** One character: a quote is dropped, anything else is kept. */
  lemma StripQuotesSingle(c: char)
    ensures StripQuotes([c]) == if IsQuote(c) then [] else [c]
  {
    assert [c][..0] == [];
  }

  /** A string without quotes is left unchanged, and only such a string is. */
  lemma {:induction false} StripQuotesIdentity(s: string)
    ensures StripQuotes(s) == s <==> QuoteFree(s)
  {
    if s != [] {
      StripQuotesIdentity(s[..|s| - 1]);
      if QuoteFree(s) {
        assert QuoteFree(s[..|s| - 1]);
      }
    }
  }

  /** Stripping twice strips nothing more. */
  lemma StripQuotesIdempotent(s: string)
    ensures StripQuotes(StripQuotes(s)) == StripQuotes(s)
  {
    StripQuotesIdentity(StripQuotes(s));
  }
}

=== FILE: wrappers.dfy ===
/** Option and Result: the model's stand-ins for JavaScript's `null` and for thrown errors. */
module Wrappers {
  datatype Option<+T> = None | Some(value: T)

  datatype Result<+T, +E> = Success(value: T) | Failure(error: E)
}
